=== FILE: README.md ===
# Lightroom gallery — a Dafny model of its pure logic

The gallery shows a catalogue of photographs exported from Lightroom. A user
narrows the catalogue by selecting keyword tags, which are intersected. Matching
photographs are laid out in justified rows and opened in a viewer with zoom,
rotation, fullscreen and keyboard navigation. A Python script builds the
catalogue from each image's metadata, and a small HTTP endpoint serves the
image files.

This project models the pure logic of those pieces as immutable data and pure
functions, one Dafny module per part of the program:

| module | file | models |
|---|---|---|
| `Photos` | photos.dfy | the `Photo` record (types/photo.ts) and the flattening of all tag lists |
| `TagIndex` | tag_index.dfy | `getUniqueTags` and `getTagCounts` (lib/data.ts), and the counting object as written |
| `Page` | page.dfy | the AND filter, tag toggle and clear, tag search, popular tags, load normalisation and the total-assignments figure (app/page.tsx) |
| `Layout` | layout.dfy | the justified-row packing and the global index of a rendered photo (components/Gallery.tsx) |
| `Viewer` | viewer.dfy | open/close/next/prev (components/Gallery.tsx); zoom, rotation, reset, fullscreen flag, key table and fit-to-window size (components/ImageModal.tsx) |
| `SourceConfig` | source_config.dfy | the blank-path check, the five-entry path history and the history labels (components/ImageSourceConfig.tsx) |
| `ImageRoute` | image_route.dfy | the `GET /api/image` decision and the extension-to-MIME lookup (app/api/image/route.ts) |
| `PhotoScript` | process_photos.dfy | `extract_tags`, `find_images`, the `photo-NNN` ids, `process_image`, `process_all`, `save_json` and `run` (scripts/process_photos.py) |
| `StringOrder`, `Text`, `Seqs`, `Wrappers` | string_order.dfy, text.dfy, seqs.dfy, wrappers.dfy | shared helpers: lexicographic string order, de-duplication and sorting, ASCII lower-casing, the Python and JavaScript whitespace sets, `strip`/`trim`, `split`/`join`, occurrence counts, sub-lists, `Option`/`Result` |

Some things become parameters:

- the file system of the image endpoint, as a map from path to entry;
- the directory listing and exiftool's answer for each image in the script;
- the container width and the window size of the gallery;
- how the form's submission went: a request failed, a step failed after the history was saved, or every step succeeded.

Widths, heights, aspect ratios and zoom are exact `real`s.

In three places the code behaves differently from a plain reading of the
viewer's intended behaviour. The model follows the code in each:

- Next and previous do not reset zoom or rotation.
- Closing does not leave fullscreen.
- Zoom and rotation are reset only when the modal goes from closed to open.

## Model

| member | source | states |
|---|---|---|
| Photos.AllTagsPermutation | lib/data.ts:6 | reordering the photos only permutes the flattened tag assignments |
| TagIndex.UniqueTags | lib/data.ts:5-8 | the result is strictly ascending (sorted, no duplicates) and a string is in it iff some photo lists it |
| StringOrder.SortedUnique | lib/data.ts:7 | `Array.from(new Set(xs)).sort()`: strictly ascending with exactly the members of the input |
| StringOrder.SortedUniqueDependsOnMembers | lib/data.ts:7 | inputs with the same members give the same result, whatever their order or repetitions |
| TagIndex.TagCounts | lib/data.ts:11-18 | the keys are exactly the assigned tags; each value is the number of assignments (a tag listed twice by one photo counts twice) and is at least 1 |
| TagIndex.CountTags | lib/data.ts:13-16 | counting one tag list into a map adds each tag's occurrences to its previous count (0 when absent) and adds no other key |
| TagIndex.CountPhotos | lib/data.ts:13-17 | counting a run of photos adds, for each tag, its number of assignments in those photos |
| TagIndex.SameMultisetSameCounts | lib/data.ts:11-18 | collections with the same multiset of tag assignments get the same counts |
| TagIndex.CountKeysAreUniqueTags | lib/data.ts:5-18 | the counted keys are exactly the unique tags |
| TagIndex.EmptyCollection | lib/data.ts:5-18 | an empty collection gives `[]` and `{}` |
| TagIndex.UntaggedPhotoIgnored | lib/data.ts:6-14 | inserting a photo without a tag list anywhere changes neither result |
| TagIndex.PermutationInvariant | lib/data.ts:5-18 | both results depend only on the multiset of photos |
| TagIndex.TagEntries | app/page.tsx:97 | `Object.entries(tagCounts)`: every entry carries its key's count, every counted tag has an entry, no tag appears twice |
| TagIndex.TotalAssignmentsIsTagTotal | app/page.tsx:327-329 | the sum of all counts equals the total length of all tag lists |
| TagIndex.PrototypeTagsBreakCounts | lib/data.ts:12-15 | on a plain object literal the tag `constructor` gets a non-number count and `__proto__` gets none, while the corrected counts give 1 to each |
| TagIndex.AsWrittenAgreesOnPlainTags | lib/data.ts:12-15 | when no assigned tag names a member the object literal inherits, the counts as written are exactly the corrected counts, as numbers |
| Page.Filter | app/page.tsx:67-76 | no selection gives the whole list; otherwise a photo is kept iff it carries every selected tag, with every copy of a matching photo kept and none of another; the result is an order-preserving sub-list |
| Page.FilterNarrows | app/page.tsx:71-73 | selecting more tags gives a sub-list of the previous result |
| Page.KeepMatchingNarrows | app/page.tsx:71-73 | filtering by a larger tag set keeps a sub-list of what a smaller one keeps |
| Page.UntaggedPhotoBreaksFilter | app/page.tsx:71-73 | with one selected tag, a photo without a tag list makes the filter as written fail, while the corrected filter leaves the photo out |
| Page.FilterAgreesOnTaggedPhotos | app/page.tsx:71-73 | when every photo has a tag list, the filter as written succeeds with the corrected filter's result |
| Page.Toggle | app/page.tsx:79-85 | an absent tag is appended at the end; a present tag is removed everywhere and the rest keep their order; membership flips for that tag only |
| Page.ToggleKeepsDistinct | app/page.tsx:79-85 | toggling keeps a duplicate-free selection duplicate-free |
| Page.ToggleTwiceRestores | app/page.tsx:79-85 | toggling an absent tag twice gives back the original selection |
| Page.ClearFilters | app/page.tsx:87-89 | the selection becomes empty and every photo is shown again |
| Page.ToggleTag | app/page.tsx:66-85 | a toggle followed by the filter effect keeps the page state consistent and shows exactly the photos matching the new selection |
| Page.SearchTags | app/page.tsx:92-94 | keeps, in order, every occurrence of each tag whose lower-case form contains the lower-case term and none of the others; an empty term keeps all |
| Page.SetSearch | app/page.tsx:92-94 | changing the search term keeps the page state consistent and leaves photos and selection unchanged |
| Page.VisibleTags | app/page.tsx:92-94 | the tags shown under the search box are the assigned tags matching the term, still strictly ascending |
| Page.SortDesc | app/page.tsx:97-98 | entries rearranged into non-increasing count order, as a permutation |
| Page.InsertDesc | app/page.tsx:98 | inserting into a non-increasing list keeps it non-increasing and adds exactly that entry |
| Page.PopularEntries | app/page.tsx:97-99 | at most five entries from the input, non-increasing, and no left-out entry has a larger count than the last one chosen |
| Page.PopularCounted | app/page.tsx:97-100 | every popular tag is counted, with the count its entry carried |
| Page.PopularOrdered | app/page.tsx:97-100 | the popular tags are in non-increasing count order |
| Page.PopularDominates | app/page.tsx:97-100 | no tag left out counts more than the last popular tag |
| Page.PopularRanked | app/page.tsx:97-100 | for entries listing a count map: at most five tags, all counted, in non-increasing count order, and no left-out tag counts more than the smallest chosen |
| Page.PopularTagsRanked | app/page.tsx:97-100 | the same ranking holds for the page's own entries and counts |
| Page.LoadShapesAgree | app/page.tsx:28-49 | `data.photos` and a bare array deliver the same photos; a failure, any other shape, or a `photos` field that is not an array gives an empty collection |
| Page.Initial | app/page.tsx:12-18 | the initial state is consistent, with no photos and no selection |
| Page.Load | app/page.tsx:22-40 | loading replaces the photos, recomputes the tag index and reapplies the kept selection |
| Page.TotalAssignments | app/page.tsx:327-329 | the "asignaciones totales" figure equals the number of tag assignments |
| Layout.AspectRatio | components/Gallery.tsx:46-51 | width over height when both are truthy, 1 otherwise |
| Layout.PackRows | components/Gallery.tsx:38-68 | no packing when the width is 0 or there are no photos; otherwise the rows are a greedy packing of the photos at 250 × aspect ratio |
| Layout.PackGreedily | components/Gallery.tsx:41-65 | the rows concatenate to the input, none is empty, each row's running width from its second photo on fits, and every break was forced |
| Layout.PlacePhoto | components/Gallery.tsx:53-60 | one step of the loop keeps the packing invariant for the photos seen so far |
| Layout.PackingUnique | components/Gallery.tsx:45-65 | two greedy packings of the same photos at the same width are equal, so the loop's result is fully determined |
| Layout.FirstRowNotShorter | components/Gallery.tsx:53-60 | of two greedy packings of the same photos, neither has a shorter first row than the other |
| Layout.BreakTooWide | components/Gallery.tsx:53-56 | a first row shorter than the whole list ends because the next photo would overflow |
| Layout.PackedTail | components/Gallery.tsx:55-60 | the first row is a prefix of the photos and the other rows pack the rest |
| Layout.SharedRowsFit | components/Gallery.tsx:53-59 | with non-negative widths, a photo sharing its row is no wider than the container: a wider photo sits alone |
| Layout.PackedEmpty | components/Gallery.tsx:63-65 | the only packing of no photos has no rows |
| Layout.GlobalIndex | components/Gallery.tsx:132-136 | the sum of earlier row lengths plus the position indexes the same photo in the flattened list |
| Layout.GlobalIndexSound | components/Gallery.tsx:132-136 | the sum of the lengths of the earlier rows plus the position is a valid index of the same photo |
| Layout.ThreePhotoLayout | components/Gallery.tsx:45-65 | widths 375, 250 and 500 in a 1000-pixel container pack as two rows, `[p1, p2]` and `[p3]` |
| Viewer.Open | components/ImageModal.tsx:78-90 | opening sets the index and the open flag, resets zoom and rotation only if the modal was closed, and keeps fullscreen |
| Viewer.Close | components/Gallery.tsx:89-92 | closing clears the open flag and the index and keeps zoom, rotation and fullscreen |
| Viewer.Next | components/Gallery.tsx:94-98 | steps forward iff there is a next photo, otherwise no change; never touches zoom, rotation or fullscreen |
| Viewer.Prev | components/Gallery.tsx:100-104 | steps back iff the index is above 0, otherwise no change; never touches zoom, rotation or fullscreen |
| Viewer.NavigationStaysInRange | components/Gallery.tsx:94-104 | next and prev keep the index inside the list and keep a visible viewer visible |
| Viewer.NextThenPrev | components/Gallery.tsx:94-104 | prev undoes next |
| Viewer.PrevThenNext | components/Gallery.tsx:94-104 | next undoes prev |
| Viewer.OpenThenClose | components/Gallery.tsx:84-92 | opening a closed viewer and closing it again changes only the reset transform |
| Viewer.ZoomIn | components/ImageModal.tsx:118-122 | the result is 3 or z + 0.25, at most both, and never below z: that is min(3, z + 0.25) |
| Viewer.ZoomOut | components/ImageModal.tsx:123-126 | the result is 0.25 or z − 0.25, at least both, and never above z: that is max(0.25, z − 0.25) |
| Viewer.ZoomBounded | components/ImageModal.tsx:118-126 | both steps keep zoom in [0.25, 3], and neither moves at its own bound |
| Viewer.ZoomInThenOut | components/ImageModal.tsx:118-126 | for 0.25 ≤ z ≤ 2.75, zoom-in then zoom-out returns z |
| Viewer.ZoomInTimesClamps | components/ImageModal.tsx:118-122 | n zoom-in steps give min(3, z + n/4) |
| Viewer.Rotate | components/ImageModal.tsx:114-117 | the result is in [0, 360) and congruent to r + 90 modulo 360 |
| Viewer.RotateCycle | components/ImageModal.tsx:114-117 | a quarter turn keeps the rotation in {0, 90, 180, 270}, and four turns are the identity |
| Viewer.ResetTransform | components/ImageModal.tsx:194-197 | zoom 1 and rotation 0; index, open flag and fullscreen unchanged |
| Viewer.ToggleFullscreen | components/ImageModal.tsx:148-160 | flips the fullscreen flag and nothing else |
| Viewer.ExitFullscreen | components/ImageModal.tsx:162-167 | leaves fullscreen and nothing else |
| Viewer.KeyDown | components/ImageModal.tsx:93-131 | no key has an effect unless the modal is open with a photo |
| Viewer.KeyTable | components/ImageModal.tsx:110-131 | in an open viewer `+`/`=` zoom in, `-` zooms out, `r`/`R` rotate a quarter turn, `f`/`F` toggle fullscreen, and any key outside the table changes nothing |
| Viewer.KeyDownKeepsTransformValid | components/ImageModal.tsx:93-131 | every key keeps zoom in bounds and rotation a quarter-turn multiple |
| Viewer.EscapeRule | components/ImageModal.tsx:97-103 | Escape leaves fullscreen if in it and otherwise closes |
| Viewer.ArrowKeys | components/ImageModal.tsx:104-109 | the arrows fire prev/next only when there is a previous/next photo |
| Viewer.KeyAliases | components/ImageModal.tsx:110-129 | `f` and `F`, `r` and `R`, `+` and `=` act alike in every state, and `0` sets zoom 1 leaving rotation |
| Viewer.TransitionsKeepTransformValid | components/ImageModal.tsx:78-90 | open, close, next, prev, reset and fullscreen toggling all keep the transform valid |
| Viewer.ZoomSurvivesNavigation | components/ImageModal.tsx:78-90 | after zooming in four times, the right arrow shows the next photo still at zoom 2 |
| Viewer.FitToBox | components/ImageModal.tsx:49-57 | with positive ratio and box, the size keeps the aspect ratio, fits the box and touches it on one side |
| Viewer.OptimalDimensions | components/ImageModal.tsx:36-70 | 1200×800 without a photo or window; min(w − 80, 1200) × min(h − 200, 800) when the photo's size is unknown |
| Viewer.OptimalDimensionsFit | components/ImageModal.tsx:45-62 | with positive photo sizes and room in the window, the floored result fits the window box and lies within 1 pixel of an aspect-preserving fit |
| SourceConfig.PathRejected | components/ImageSourceConfig.tsx:44 | a path is rejected iff it is empty or all JavaScript whitespace |
| SourceConfig.UpdateHistory | components/ImageSourceConfig.tsx:88 | the submitted path comes first and only there; the rest is a prefix of the other paths in their old order, so the most recent are kept; the length is min(5, 1 + others) |
| SourceConfig.UpdateKeepsDistinct | components/ImageSourceConfig.tsx:88 | a duplicate-free history stays duplicate-free |
| SourceConfig.ResubmitHeadUnchanged | components/ImageSourceConfig.tsx:88 | re-submitting the head of a duplicate-free history of at most five entries changes nothing |
| SourceConfig.UpdateIdempotent | components/ImageSourceConfig.tsx:88 | submitting the same path twice has the effect of submitting it once |
| SourceConfig.HistoryLabel | components/ImageSourceConfig.tsx:311 | paths up to 30 characters are shown whole; longer ones as their first 30 characters plus `...` |
| SourceConfig.HistoryLabelIdempotent | components/ImageSourceConfig.tsx:311 | shortening a shortened label changes nothing |
| SourceConfig.Submit | components/ImageSourceConfig.tsx:41-105 | a blank path only sets the error status; a request failing before the history is saved sets it and keeps the history; a step throwing after the save sets it and keeps the new history; success records the path and sets success |
| SourceConfig.SubmitHistoryOutcomes | components/ImageSourceConfig.tsx:87-101 | every submission either keeps the history or records the path in it; success happens iff the path is not blank and every step succeeded, and it always records the path |
| SourceConfig.SubmitWithRoute | components/ImageSourceConfig.tsx:56-68 | when the image route does not accept POST, the submission ends in error with the history unchanged; when it does, the submission proceeds as the remaining steps decide |
| SourceConfig.ConfigPostNeverSucceeds | components/ImageSourceConfig.tsx:56-68 | with the route as written (only `GET` exported), no submission succeeds or records its path |
| SourceConfig.SubmitWithPostRouteSaves | components/ImageSourceConfig.tsx:56-95 | with a route that accepts the configuration POST, a non-blank path whose processing succeeds is recorded with the success status |
| SourceConfig.SubmitBoundsHistory | components/ImageSourceConfig.tsx:87-89 | the history never grows past five entries |
| ImageRoute.Get | app/api/image/route.ts:9-50 | 400 iff the name is missing or empty; 404 iff the joined path is absent, with that path echoed; an image iff it is a file, with its bytes, the MIME type of the path and the cache header |
| ImageRoute.Extname | app/api/image/route.ts:29 | the extension is non-empty iff the last path component is not `..` and has a dot after its first character; then it is the suffix from that component's last dot |
| ImageRoute.Basename | app/api/image/route.ts:29 | the result is the last path component: only separators follow it, it holds none, and a separator or the path's start precedes it |
| ImageRoute.LastComponentUnique | app/api/image/route.ts:29 | a path has only one last component, so the basename is fully determined |
| ImageRoute.NoExtnameWithoutInnerDot | app/api/image/route.ts:29 | a name with no dot after its first character has no extension |
| ImageRoute.LowerExtname | app/api/image/route.ts:29 | lower-casing the path lower-cases its extension |
| ImageRoute.MimeFor | app/api/image/route.ts:29-41 | `image/jpeg` iff the lower-cased extension is `.jpg` or `.jpeg`; `image/png`, `image/gif`, `image/webp` iff it is `.png`, `.gif`, `.webp`; `application/octet-stream` iff it is none of these |
| ImageRoute.MimeIgnoresCase | app/api/image/route.ts:29-41 | the MIME decision does not depend on letter case in the path |
| ImageRoute.BasenameOfJoin | app/api/image/route.ts:19 | the last component of the joined path is the requested name when it holds no separator |
| ImageRoute.ExtnameAt | app/api/image/route.ts:19-29 | for a name other than `..` whose last dot is at i > 0, the extension is the name from i on |
| ImageRoute.UpperCaseJpeg | app/api/image/route.ts:29-41 | `X.JPG` is served as `image/jpeg` |
| ImageRoute.TiffIsDefault | app/api/image/route.ts:41 | `scan.tiff` is served as `application/octet-stream` |
| ImageRoute.NoExtensionIsDefault | app/api/image/route.ts:41 | `README` and `.jpg` (a leading dot only) are served as `application/octet-stream` |
| ImageRoute.SuccessHeaders | app/api/image/route.ts:39-44 | every image response carries `public, max-age=86400` and a type from the table or the default |
| PhotoScript.KeepStripped | scripts/process_photos.py:146 | every kept item is non-empty and carries no surrounding whitespace, and no more items are kept than given |
| PhotoScript.KeepStrippedMembers | scripts/process_photos.py:146 | a string is kept iff it is the non-empty stripped form of some item |
| Text.Strip | scripts/process_photos.py:146 | `strip()`: a slice of the input that neither starts nor ends with whitespace, and empty iff the input is all whitespace |
| Text.Split | scripts/process_photos.py:155 | `split(sep)`: at least one piece, no piece holds the separator, joining the pieces with it gives the input back, one piece iff the separator is absent, and the first piece ends at the leftmost occurrence |
| Text.SplitRest | scripts/process_photos.py:155 | after the first piece and its separator, the remaining pieces are the split of the rest of the string, so the cuts are made leftmost first, as Python does |
| PhotoScript.ChooseSeparator | scripts/process_photos.py:152-156 | picks the first separator in the order `,` `;` `|` `/` `\n` (backslash, n) that occurs; none iff none occurs |
| PhotoScript.FieldTags | scripts/process_photos.py:140-159 | tags are clean; values that are neither list nor string give none; a blank string gives none |
| PhotoScript.StringTags | scripts/process_photos.py:147-159 | a string value gives clean tags, none when it is blank |
| PhotoScript.NoSeparatorWholeValue | scripts/process_photos.py:157-159 | a string with no separator gives its stripped self as the only tag |
| PhotoScript.SeparatedValuePieces | scripts/process_photos.py:152-156 | a string with a separator gives the stripped non-empty pieces around the chosen separator, which join back to the stripped value |
| PhotoScript.CommaRanksFirst | scripts/process_photos.py:152-156 | `x,y` with `y` holding lower-ranked separators splits on the comma only, giving exactly `x` and `y` (so `a,b;c` gives `a` and `b;c`) |
| PhotoScript.CollectTags | scripts/process_photos.py:140-160 | a tag is collected iff one of the consulted fields present yields it |
| PhotoScript.ExtractTags | scripts/process_photos.py:126-163 | strictly ascending, every tag clean, and a tag is present iff one of the six fields yields it |
| PhotoScript.OnlyTagFieldsCount | scripts/process_photos.py:131-160 | metadata agreeing on the string and list values of the six fields gives the same tags |
| PhotoScript.KeywordsOnly | scripts/process_photos.py:140-159 | metadata holding only `Keywords` yields exactly that field's tags |
| PhotoScript.ExtractTagsIsNormalForm | scripts/process_photos.py:144-162 | feeding the extracted tags back as a `Keywords` list reproduces them |
| PhotoScript.Candidates | scripts/process_photos.py:59-67 | a name is a candidate iff it is listed and ends in one of the patterns' extensions |
| PhotoScript.FindImages | scripts/process_photos.py:54-70 | ascending by lower-cased name, lower-cased names pairwise distinct, every result an image in the listing, and every image in the listing represented by its lower-cased name |
| StringOrder.SortBy | scripts/process_photos.py:70 | `sorted(..., key=str.lower)` on names with distinct keys: ascending by key and a permutation of the input |
| PhotoScript.DecimalRoundTrip | scripts/process_photos.py:180 | the decimal numeral of n denotes n |
| PhotoScript.ZeroPad | scripts/process_photos.py:180 | the padded string has length max(|s|, width), ends with s and is zeros before it |
| PhotoScript.PaddedValue | scripts/process_photos.py:180 | zero-padding keeps the denoted number |
| PhotoScript.PhotoId | scripts/process_photos.py:180 | `photo-` followed by digits: exactly three, or more with no leading zero |
| PhotoScript.PhotoIdNumber | scripts/process_photos.py:180 | the digits after `photo-` denote index + 1 |
| PhotoScript.PhotoIdInjective | scripts/process_photos.py:180 | different positions give different ids |
| PhotoScript.FirstPhotoId | scripts/process_photos.py:180 | the first image gets `photo-001` |
| PhotoScript.ThousandthPhotoId | scripts/process_photos.py:180 | the thousandth image gets `photo-1000`, longer than the padding |
| PhotoScript.ProcessImage | scripts/process_photos.py:165-197 | a record iff there is non-empty metadata; id from the position, `content/` path, extracted tags; date and caption from their first present key; width and height as given or null; software and camera (`Model`) as given or empty |
| PhotoScript.Sources | scripts/process_photos.py:209-215 | exactly the positions whose image has metadata, strictly increasing |
| PhotoScript.ProcessAll | scripts/process_photos.py:199-220 | success iff some record was made iff some image has metadata; no images give no records |
| PhotoScript.ProcessedRecords | scripts/process_photos.py:209-215 | each record is what processing its own image at its own position gives |
| PhotoScript.ProcessedIdsDistinct | scripts/process_photos.py:209-215 | all records have different ids |
| PhotoScript.GapExample | scripts/process_photos.py:209-215 | an image without metadata leaves a gap: the next record keeps its own position's id |
| PhotoScript.RecordTags | scripts/process_photos.py:233 | a tag is in the flattened list iff some record carries it |
| PhotoScript.SaveJson | scripts/process_photos.py:222-237 | refuses empty data; `total_photos` is the number of records and `total_tags` the number of distinct tags |
| PhotoScript.TotalTagsBounded | scripts/process_photos.py:233 | the distinct-tag total never exceeds the number of tag assignments |
| PhotoScript.Run | scripts/process_photos.py:222-283 | a summary is written iff some image has metadata; its photo total is the number of images with metadata and its tag total the number of distinct tags over their records |

## Left out

- Network and storage I/O are not modelled: the fetch of `/photos.json`, the form's POST requests, localStorage, the image download, exiftool, `chdir`, the JSON file write and all logging. Their outcomes are parameters where they matter.
- React effects, listener wiring, the resize listener and the 300 ms timer in `handleCloseModal` are not modelled; closing clears the index at once. The stale rows kept when the packing effect returns early are not modelled either.
- The Escape listener in components/Gallery.tsx (lines 71-82) closes the modal even when the modal's own listener only leaves fullscreen. Both fire on the same key, and the model keeps only the modal's rule.
- Where the open index points after the filtered list shrinks while the viewer is open: the code has no policy, so the model states none.
- The browser Fullscreen API and its promises are reduced to a flag that toggling flips; a refused request is not modelled.
- Viewer.OptimalDimensions: its contract gives only the default and unknown-size cases. The known-size case is stated by Viewer.OptimalDimensionsFit for positive sizes and a window with room. Zero or negative room is left unstated.
- Floating point: JavaScript doubles are exact reals here, so ties at `<=` may differ from IEEE results, and `Math.floor` is `.Floor`.
- Text: lower-casing covers ASCII letters only. The string order is by Unicode code point, which is Python's order; JavaScript's `sort()` compares UTF-16 code units, which differs only beyond the Basic Multilingual Plane.
- TagIndex.TagEntries: keys are listed in first-assignment order. JavaScript lists integer-like keys first, so ties in the popular ranking may be ordered differently.
- Python's `str()` of non-string list items is taken as given: list items are already strings in the model.
- PhotoScript.FindImages: pattern matching is case-sensitive, and each pattern scans the listing in the order given. On Windows, glob ignores case and the order is the file system's. The contract does not state which of several names sharing a lower-case form is kept; the model keeps the first one found.
- PhotoScript.ProcessImage: the exception guard around each image, the log line's shortened name, and the generated timestamp and source folder in the summary are left out. So is a failed JSON write in `save_json`.
- ImageRoute.Get: `path.join` normalisation (`..` segments, forward slashes) is not modelled; the path is the folder, a backslash and the name. The 500 answer is modelled only for a path naming a directory; other read errors are not.
- SourceConfig.Submit: the status messages, the processing flag and the scan options are left out.
- Page: the loading flag and the path-input toggle are left out.
- Left out as glue or configuration with no logic of their own: scripts/rename_files_directly.py, scripts/extract_metadata.py, app/api/run-script/route.ts, components/PathInput.tsx (its only check is the trim already modelled), components/ImageCard.tsx and next.config.ts.
- Photo ids are not in lexicographic order past `photo-999` (`photo-1000` sorts before `photo-101`). This is noted, not proved.

## Findings

| source | as written | input that shows it | evidently intended | confidence | as-written member | corrected member |
|---|---|---|---|---|---|---|
| lib/data.ts:12-15 | counts live in the object literal `{}`, so `counts[tag] \|\| 0` reads inherited `Object.prototype` members | one photo tagged `constructor` gets the count `"function Object() { [native code] }1"`; one tagged `__proto__` gets no count, though `getUniqueTags` lists it | every assigned tag counted as a number of assignments | not executed | TagIndex.TagCountsAsWritten (exhibited by TagIndex.PrototypeTagsBreakCounts) | TagIndex.TagCounts |
| app/page.tsx:71-73 | the filter calls `photo.tags.includes(tag)` directly, although lib/data.ts reads a missing tag list as empty | one selected tag and one photo with no `tags` field: `includes` is called on `undefined` and throws | a photo without tags simply does not match | not executed | Page.FilterAsWritten (exhibited by Page.UntaggedPhotoBreaksFilter) | Page.Filter |
| components/ImageSourceConfig.tsx:56-68 | the form first POSTs `{action: 'set', path}` to `/api/image`, but app/api/image/route.ts exports only `GET`, so the framework answers 405 and the form throws before processing | any non-blank path, for example `C:\fotos` | the image route accepts the configuration POST, so a processed path is recorded and reported as success | medium, rests on the framework answering 405 for an unexported method; not executed | SourceConfig.SubmitWithRoute with `ImageRouteMethods` (exhibited by SourceConfig.ConfigPostNeverSucceeds) | SourceConfig.Submit (with SourceConfig.SubmitWithPostRouteSaves) |

=== FILE: image_route.dfy ===
/**
 * The image endpoint (app/api/image/route.ts): `GET /api/image?filename=...`
 * answers 400 without a name, 404 when the joined path does not exist, and
 * otherwise the file's bytes with a MIME type chosen from the lower-cased
 * extension. The file system is a parameter: a map from path to entry.
 */
module ImageRoute {
  import opened Wrappers
  import opened Text

  type Byte = bv8

  /** What a path names on disk. */
  datatype Entry = File(bytes: seq<Byte>) | Directory

  type FileSystem = map<string, Entry>

  /** `IMAGES_FOLDER`. */
  const ImagesFolder: string := "G:\\Mi unidad\\respaldo pc\\jhonatan\\jhondeser_web\\libreria_lightroom"

  const CacheControl: string := "public, max-age=86400"
  const DefaultMime: string := "application/octet-stream"

  /** `mimeTypes`. */
  const MimeTypes: map<string, string> := map[
    ".jpg" := "image/jpeg",
    ".jpeg" := "image/jpeg",
    ".png" := "image/png",
    ".gif" := "image/gif",
    ".webp" := "image/webp"]

  datatype Response =
    | JsonError(status: nat, error: string, path: Option<string>)
    | Image(body: seq<Byte>, contentType: string, cacheControl: string)

  function StatusOf(r: Response): nat
  {
    match r
    case JsonError(status, _, _) => status
    case Image(_, _, _) => 200
  }

  /** `path.join(IMAGES_FOLDER, filename)`, with the Windows separator and without normalisation. */
  function JoinPath(folder: string, name: string): string
  {
    folder + "\\" + name
  }

  // ---------------------------------------------------------------------------
  // Extension

  predicate IsSeparator(c: char) { c == '/' || c == '\\' }

  predicate IsDot(c: char) { c == '.' }

  /** Position of the last character before `hi` satisfying `f`, if any. */
  function LastBefore(s: string, f: char -> bool, hi: nat): (r: Option<nat>)
    requires hi <= |s|
    ensures r.Some? ==> r.value < hi && f(s[r.value]) && forall j | r.value < j < hi :: !f(s[j])
    ensures r.None? ==> forall j | 0 <= j < hi :: !f(s[j])
    decreases hi
  {
    if hi == 0 then None
    else if f(s[hi - 1]) then Some(hi - 1)
    else LastBefore(s, f, hi - 1)
  }

  /**
   * `p[start..end]` is the last component of `p`: only separators follow it,
   * it holds none, it does not end in one, and a separator or the start of
   * the path comes right before it.
   */
  predicate IsLastComponent(p: string, start: nat, end: nat)
  {
    && start <= end <= |p|
    && (forall j | start <= j < end :: !IsSeparator(p[j]))
    && (forall j | end <= j < |p| :: IsSeparator(p[j]))
    && (end > 0 ==> !IsSeparator(p[end - 1]))
    && (start > 0 ==> IsSeparator(p[start - 1]))
  }

  /** A path has only one last component. */
  lemma LastComponentUnique(p: string, s1: nat, e1: nat, s2: nat, e2: nat)
    requires IsLastComponent(p, s1, e1) && IsLastComponent(p, s2, e2)
    ensures s1 == s2 && e1 == e2
  {
  }

  /** Where the last path component starts and ends, trailing separators ignored. */
  function ComponentBounds(p: string): (r: (nat, nat))
    ensures IsLastComponent(p, r.0, r.1)
  {
    var end := SkipBackward(p, IsSeparator, 0, |p|);
    match LastBefore(p, IsSeparator, end)
    case None => (0, end)
    case Some(i) => (i + 1, end)
  }

  /** The last path component, trailing separators ignored. */
  function Basename(p: string): (b: string)
    ensures forall j | 0 <= j < |b| :: !IsSeparator(b[j])
    ensures exists start: nat, end: nat :: IsLastComponent(p, start, end) && b == p[start..end]
  {
    var (start, end) := ComponentBounds(p);
    p[start..end]
  }

  /**
   * The extension of a single path component: from its last dot to its end;
   * empty when it has no dot, starts with its last dot, or is `..`.
   */
  function ExtOf(b: string): (ext: string)
    ensures ext == "" || (ext[0] == '.' && forall j | 1 <= j < |ext| :: ext[j] != '.')
    ensures ext != "" ==> exists k :: 0 < k && k + |ext| == |b| && b[k..] == ext
    ensures ext != "" <==> b != ".." && exists k | 0 < k < |b| :: b[k] == '.'
  {
    match LastBefore(b, IsDot, |b|)
    case None => ""
    case Some(i) =>
      if i == 0 || b == ".." then ""
      else
        assert b[i..][0] == '.';
        assert b[|b| - (|b| - i)..] == b[i..];
        b[i..]
  }

  /** `path.extname`: the extension of the last path component. */
  function Extname(p: string): (ext: string)
    ensures ext == "" || (ext[0] == '.' && forall j | 1 <= j < |ext| :: ext[j] != '.' && !IsSeparator(ext[j]))
    ensures ext != "" ==> exists k :: 0 < k && k + |ext| == |Basename(p)| && Basename(p)[k..] == ext
    ensures ext != "" <==> Basename(p) != ".." && exists k | 0 < k < |Basename(p)| :: Basename(p)[k] == '.'
  {
    var b := Basename(p);
    var ext := ExtOf(b);
    assert ext != "" ==> forall j | 0 <= j < |ext| :: ext[j] in b;
    ext
  }

  /** `mimeTypes[ext] || 'application/octet-stream'` on the lower-cased extension. */
  function MimeFor(p: string): (mime: string)
    ensures mime == "image/jpeg" <==> Lower(Extname(p)) in {".jpg", ".jpeg"}
    ensures mime == "image/png" <==> Lower(Extname(p)) == ".png"
    ensures mime == "image/gif" <==> Lower(Extname(p)) == ".gif"
    ensures mime == "image/webp" <==> Lower(Extname(p)) == ".webp"
    ensures mime == DefaultMime <==> Lower(Extname(p)) !in {".jpg", ".jpeg", ".png", ".gif", ".webp"}
  {
    var ext := Lower(Extname(p));
    if ext in MimeTypes then MimeTypes[ext] else DefaultMime
  }

  // ---------------------------------------------------------------------------
  // GET

  /** The request handler; `filename` is the query parameter, absent as `None`. */
  function Get(fs: FileSystem, filename: Option<string>): (r: Response)
    ensures StatusOf(r) == 400 <==> filename.None? || filename.value == ""
    ensures StatusOf(r) == 404 <==> filename.Some? && filename.value != "" && JoinPath(ImagesFolder, filename.value) !in fs
    ensures StatusOf(r) == 404 ==> r.path == Some(JoinPath(ImagesFolder, filename.value))
    ensures StatusOf(r) in {200, 400, 404, 500}
    ensures r.Image? <==> StatusOf(r) == 200
    ensures r.Image? <==>
      filename.Some? && filename.value != "" && JoinPath(ImagesFolder, filename.value) in fs
      && fs[JoinPath(ImagesFolder, filename.value)].File?
    ensures r.Image? ==>
      var path := JoinPath(ImagesFolder, filename.value);
      r.body == fs[path].bytes && r.contentType == MimeFor(path) && r.cacheControl == CacheControl
  {
    if filename.None? || filename.value == "" then
      JsonError(400, "Se requiere nombre de archivo", None)
    else
      var path := JoinPath(ImagesFolder, filename.value);
      if path !in fs then
        JsonError(404, "Imagen no encontrada", Some(path))
      else
        match fs[path]
        case Directory => JsonError(500, "Error interno", None)
        case File(bytes) => Image(bytes, MimeFor(path), CacheControl)
  }

  // ---------------------------------------------------------------------------
  // Properties of the extension lookup

  lemma {:induction false} LowerSkipBackward(p: string, f: char -> bool, lo: nat, hi: nat)
    requires forall c :: f(LowerChar(c)) == f(c)
    requires lo <= hi <= |p| && forall i | hi <= i < |p| :: f(p[i])
    ensures SkipBackward(Lower(p), f, lo, hi) == SkipBackward(p, f, lo, hi)
    decreases hi
  {
    if hi > lo && f(p[hi - 1]) {
      LowerSkipBackward(p, f, lo, hi - 1);
    }
  }

  lemma {:induction false} LowerLastBefore(s: string, f: char -> bool, hi: nat)
    requires forall c :: f(LowerChar(c)) == f(c)
    requires hi <= |s|
    ensures LastBefore(Lower(s), f, hi) == LastBefore(s, f, hi)
    decreases hi
  {
    if hi > 0 {
      LowerLastBefore(s, f, hi - 1);
    }
  }

  lemma LowerCharSeparator(c: char)
    ensures IsSeparator(LowerChar(c)) == IsSeparator(c)
  {
  }

  lemma LowerCharDot(c: char)
    ensures IsDot(LowerChar(c)) == IsDot(c)
  {
  }

  lemma LowerSeparatorEnd(p: string)
    ensures SkipBackward(Lower(p), IsSeparator, 0, |p|) == SkipBackward(p, IsSeparator, 0, |p|)
  {
    forall c { LowerCharSeparator(c); }
    LowerSkipBackward(p, IsSeparator, 0, |p|);
  }

  lemma LowerSeparatorBefore(p: string, end: nat)
    requires end <= |p|
    ensures LastBefore(Lower(p), IsSeparator, end) == LastBefore(p, IsSeparator, end)
  {
    forall c { LowerCharSeparator(c); }
    LowerLastBefore(p, IsSeparator, end);
  }

  lemma LowerComponentBounds(p: string)
    ensures ComponentBounds(Lower(p)) == ComponentBounds(p)
  {
    LowerSeparatorEnd(p);
    LowerSeparatorBefore(p, SkipBackward(p, IsSeparator, 0, |p|));
  }

  lemma LowerBasename(p: string)
    ensures Basename(Lower(p)) == Lower(Basename(p))
  {
    LowerComponentBounds(p);
    var (start, end) := ComponentBounds(p);
    assert Lower(p)[start..end] == Lower(p[start..end]);
  }

  lemma LowerExtOf(b: string)
    ensures ExtOf(Lower(b)) == Lower(ExtOf(b))
  {
    forall c { LowerCharDot(c); }
    LowerLastBefore(b, IsDot, |b|);
    match LastBefore(b, IsDot, |b|)
    case None =>
    case Some(i) =>
      if i > 0 && Lower(b) == ".." {
        assert b[0] == '.' by { LowerCharDot(b[0]); }
        assert b[1] == '.' by { LowerCharDot(b[1]); }
        assert b == "..";
      }
      assert Lower(b)[i..] == Lower(b[i..]);
  }

  /** Lower-casing a path lower-cases its extension. */
  lemma LowerExtname(p: string)
    ensures Extname(Lower(p)) == Lower(Extname(p))
  {
    LowerBasename(p);
    LowerExtOf(Basename(p));
  }

  /** The MIME decision ignores letter case in the path. */
  lemma MimeIgnoresCase(p: string)
    ensures MimeFor(Lower(p)) == MimeFor(p)
  {
    LowerExtname(p);
    LowerIdempotent(Extname(p));
  }

  /** Characters not satisfying `f` between `lo` and `hi` are skipped over. */
  lemma {:induction false} LastBeforeSkips(s: string, f: char -> bool, lo: nat, hi: nat)
    requires lo <= hi <= |s| && forall j | lo <= j < hi :: !f(s[j])
    ensures LastBefore(s, f, hi) == LastBefore(s, f, lo)
    decreases hi
  {
    if hi > lo {
      LastBeforeSkips(s, f, lo, hi - 1);
    }
  }

  /** The last component of a joined path is the file name, when the name holds no separator. */
  lemma BasenameOfJoin(folder: string, name: string)
    requires |name| > 0 && forall j | 0 <= j < |name| :: !IsSeparator(name[j])
    ensures Basename(JoinPath(folder, name)) == name
  {
    var p := JoinPath(folder, name);
    var k := |folder| + 1;
    assert p[k..] == name;
    assert SkipBackward(p, IsSeparator, 0, |p|) == |p|;
    LastBeforeSkips(p, IsSeparator, k, |p|);
    assert LastBefore(p, IsSeparator, k) == Some(|folder|);
  }

  /** The extension of a file name other than `..` whose last dot is at `i > 0`. */
  lemma ExtnameAt(folder: string, name: string, i: nat)
    requires |name| > 0 && forall j | 0 <= j < |name| :: !IsSeparator(name[j])
    requires 0 < i < |name| && name[i] == '.' && forall j | i < j < |name| :: name[j] != '.'
    requires name != ".."
    ensures Extname(JoinPath(folder, name)) == name[i..]
  {
    BasenameOfJoin(folder, name);
    LastBeforeSkips(name, IsDot, i + 1, |name|);
  }

  /** A name without a dot after its first character has no extension. */
  lemma NoExtnameWithoutInnerDot(folder: string, name: string)
    requires |name| > 0 && forall j | 0 <= j < |name| :: !IsSeparator(name[j])
    requires forall j | 0 < j < |name| :: name[j] != '.'
    ensures Extname(JoinPath(folder, name)) == ""
  {
    BasenameOfJoin(folder, name);
    LastBeforeSkips(name, IsDot, 1, |name|);
  }

  lemma UpperJpgSuffix()
    ensures "X.JPG"[1..] == ".JPG"
    ensures Lower(".JPG") == ".jpg"
  {
    assert Lower(".JPG")[1] == 'j';
  }

  /** A file named `X.JPG` is served as JPEG, whatever folder it sits in. */
  lemma UpperCaseJpeg(folder: string)
    ensures MimeFor(JoinPath(folder, "X.JPG")) == "image/jpeg"
  {
    ExtnameAt(folder, "X.JPG", 1);
    UpperJpgSuffix();
  }

  lemma TiffSuffix()
    ensures "scan.tiff"[4..] == ".tiff"
    ensures Lower(".tiff") !in MimeTypes
  {
    assert Lower(".tiff")[1] == 't';
  }

  /** A `.tiff` file falls back to the default type. */
  lemma TiffIsDefault(folder: string)
    ensures MimeFor(JoinPath(folder, "scan.tiff")) == DefaultMime
  {
    ExtnameAt(folder, "scan.tiff", 4);
    TiffSuffix();
  }

  /** A name without a dot, and a name whose only dot comes first, fall back to the default type. */
  lemma NoExtensionIsDefault(folder: string)
    ensures MimeFor(JoinPath(folder, "README")) == DefaultMime
    ensures MimeFor(JoinPath(folder, ".jpg")) == DefaultMime
  {
    NoExtnameWithoutInnerDot(folder, "README");
    NoExtnameWithoutInnerDot(folder, ".jpg");
    assert Lower("") == "";
  }

  /** Every successful response carries the one-day public cache header and a type from the table or the default. */
  lemma SuccessHeaders(fs: FileSystem, filename: Option<string>)
    requires StatusOf(Get(fs, filename)) == 200
    ensures Get(fs, filename).cacheControl == CacheControl
    ensures Get(fs, filename).contentType in MimeTypes.Values || Get(fs, filename).contentType == DefaultMime
  {
  }
}

=== FILE: layout.dfy ===
/**
 * The justified-rows layout of the gallery (components/Gallery.tsx): every
 * photo is scaled to the target row height and photos are packed greedily
 * into rows no wider than the container.
 */
module Layout {
  import opened Wrappers
  import opened Photos

  /** `targetRowHeight`, in pixels. */
  const TargetRowHeight: real := 250.0

  /** JavaScript truthiness of an optional JSON number: present and non-zero. */
  predicate Truthy(x: Option<real>)
  {
    x.Some? && x.value != 0.0
  }

  /** Width over height when both are truthy; a square otherwise. */
  function AspectRatio(p: Photo): (r: real)
    ensures Truthy(p.width) && Truthy(p.height) ==> r * p.height.value == p.width.value
    ensures !(Truthy(p.width) && Truthy(p.height)) ==> r == 1.0
  {
    if Truthy(p.width) && Truthy(p.height) then p.width.value / p.height.value else 1.0
  }

  /** The width the photo takes at the target row height. */
  function DisplayWidth(p: Photo): real
  {
    TargetRowHeight * AspectRatio(p)
  }

  /**
   * Sum of the widths in a row (what `currentRowWidth` accumulates). The
   * packing is stated for any width function `w`; the gallery uses `DisplayWidth`.
   */
  function RowWidth(row: seq<Photo>, w: Photo -> real): real
  {
    if |row| == 0 then 0.0 else RowWidth(row[..|row| - 1], w) + w(row[|row| - 1])
  }

  /** The rows read left to right, top to bottom. */
  function Flatten(rows: seq<seq<Photo>>): seq<Photo>
  {
    if |rows| == 0 then [] else rows[0] + Flatten(rows[1..])
  }

  lemma {:induction false} FlattenSnoc(rows: seq<seq<Photo>>, row: seq<Photo>)
    ensures Flatten(rows + [row]) == Flatten(rows) + row
    decreases |rows|
  {
    if |rows| == 0 {
      assert [row][1..] == [];
    } else {
      assert (rows + [row])[1..] == rows[1..] + [row];
      FlattenSnoc(rows[1..], row);
    }
  }

  /** Every second-or-later photo was admitted because the row, with it, still fit the container. */
  predicate RowFits(row: seq<Photo>, containerWidth: real, w: Photo -> real)
  {
    forall k | 2 <= k <= |row| :: RowWidth(row[..k], w) <= containerWidth
  }

  /** Each row was closed because its first successor did not fit. */
  predicate Greedy(rows: seq<seq<Photo>>, containerWidth: real, w: Photo -> real)
  {
    forall r | 1 <= r < |rows| :: |rows[r]| > 0 && RowWidth(rows[r - 1], w) + w(rows[r][0]) > containerWidth
  }

  /** `rows` is a greedy packing of `photos`: the photos in order, no empty row, every row fitting, every break forced. */
  predicate Packed(rows: seq<seq<Photo>>, photos: seq<Photo>, containerWidth: real, w: Photo -> real)
  {
    && Flatten(rows) == photos
    && (forall r | 0 <= r < |rows| :: |rows[r]| > 0 && RowFits(rows[r], containerWidth, w))
    && Greedy(rows, containerWidth, w)
  }

  /**
   * The packing effect. `None` stands for the early return that leaves the
   * previous rows in place (zero container width or no photos); otherwise the
   * result is the greedy packing of the photos at their display widths.
   */
  method PackRows(photos: seq<Photo>, containerWidth: real) returns (rows: Option<seq<seq<Photo>>>)
    ensures rows.None? <==> containerWidth == 0.0 || |photos| == 0
    ensures rows.Some? ==> Packed(rows.value, photos, containerWidth, DisplayWidth)
  {
    if containerWidth == 0.0 || |photos| == 0 {
      return None;
    }
    var packed := PackGreedily(photos, containerWidth, DisplayWidth);
    return Some(packed);
  }

  /** The `forEach` loop, for any width function `w`. */
  method PackGreedily(photos: seq<Photo>, containerWidth: real, w: Photo -> real) returns (rows: seq<seq<Photo>>)
    requires |photos| > 0
    ensures Packed(rows, photos, containerWidth, w)
  {
    var done: seq<seq<Photo>> := [];
    var current: seq<Photo> := [];
    var width: real := 0.0;
    PackingStart(containerWidth, w);
    assert photos[..0] == [];
    for i := 0 to |photos|
      invariant LoopState(done, current, width, photos[..i], containerWidth, w)
      invariant |current| == 0 ==> i == 0
    {
      assert photos[..i + 1] == photos[..i] + [photos[i]];
      done, current, width := PlacePhoto(done, current, width, photos[i], photos[..i], containerWidth, w);
    }
    assert photos[..|photos|] == photos;
    FinishRows(done, current, photos, containerWidth, w);
    rows := done + [current];
  }

  lemma PackingStart(containerWidth: real, w: Photo -> real)
    ensures LoopState([], [], 0.0, [], containerWidth, w)
  {
  }

  predicate LoopState(done: seq<seq<Photo>>, current: seq<Photo>, width: real, seen: seq<Photo>, containerWidth: real, w: Photo -> real)
  {
    PackingSoFar(done, current, seen, containerWidth, w) && width == RowWidth(current, w) && (|current| == 0 ==> done == [])
  }

  /** One iteration: the photo joins the open row if it fits or the row is empty, and otherwise opens a new row. */
  method PlacePhoto(done: seq<seq<Photo>>, current: seq<Photo>, width: real, p: Photo, seen: seq<Photo>, containerWidth: real, w: Photo -> real)
    returns (done': seq<seq<Photo>>, current': seq<Photo>, width': real)
    requires LoopState(done, current, width, seen, containerWidth, w)
    ensures LoopState(done', current', width', seen + [p], containerWidth, w)
    ensures |current'| > 0
  {
    if width + w(p) <= containerWidth || |current| == 0 {
      ExtendRow(done, current, p, seen, containerWidth, w);
      done', current', width' := done, current + [p], width + w(p);
    } else {
      BreakRow(done, current, p, seen, containerWidth, w);
      assert [p][..0] == [];
      done', current', width' := done + [current], [p], w(p);
    }
  }

  /** The loop state of the packing: closed rows `done` and the open row `current` hold the photos seen so far. */
  predicate PackingSoFar(done: seq<seq<Photo>>, current: seq<Photo>, seen: seq<Photo>, containerWidth: real, w: Photo -> real)
  {
    && Flatten(done) + current == seen
    && (forall r | 0 <= r < |done| :: |done[r]| > 0 && RowFits(done[r], containerWidth, w))
    && RowFits(current, containerWidth, w)
    && Greedy(done, containerWidth, w)
    && (|done| > 0 ==> |current| > 0 && RowWidth(done[|done| - 1], w) + w(current[0]) > containerWidth)
  }

  lemma ExtendRow(done: seq<seq<Photo>>, current: seq<Photo>, p: Photo, seen: seq<Photo>, containerWidth: real, w: Photo -> real)
    requires PackingSoFar(done, current, seen, containerWidth, w)
    requires |current| == 0 ==> done == []
    requires |current| == 0 || RowWidth(current, w) + w(p) <= containerWidth
    ensures PackingSoFar(done, current + [p], seen + [p], containerWidth, w)
    ensures RowWidth(current + [p], w) == RowWidth(current, w) + w(p)
  {
    AppendFits(current, p, containerWidth, w);
    if |done| > 0 {
      assert (current + [p])[0] == current[0];
    }
  }

  lemma BreakRow(done: seq<seq<Photo>>, current: seq<Photo>, p: Photo, seen: seq<Photo>, containerWidth: real, w: Photo -> real)
    requires PackingSoFar(done, current, seen, containerWidth, w)
    requires |current| > 0 && RowWidth(current, w) + w(p) > containerWidth
    ensures PackingSoFar(done + [current], [p], seen + [p], containerWidth, w)
  {
    FlattenSnoc(done, current);
    RowsFitSnoc(done, current, containerWidth, w);
    GreedySnoc(done, current, containerWidth, w);
    assert [p][0] == p;
  }

  lemma FinishRows(done: seq<seq<Photo>>, current: seq<Photo>, photos: seq<Photo>, containerWidth: real, w: Photo -> real)
    requires PackingSoFar(done, current, photos, containerWidth, w)
    requires |current| > 0
    ensures Packed(done + [current], photos, containerWidth, w)
  {
    FlattenSnoc(done, current);
    RowsFitSnoc(done, current, containerWidth, w);
    GreedySnoc(done, current, containerWidth, w);
  }

  /** Closing a non-empty fitting row keeps every closed row non-empty and fitting. */
  lemma RowsFitSnoc(done: seq<seq<Photo>>, current: seq<Photo>, containerWidth: real, w: Photo -> real)
    requires forall r | 0 <= r < |done| :: |done[r]| > 0 && RowFits(done[r], containerWidth, w)
    requires |current| > 0 && RowFits(current, containerWidth, w)
    ensures forall r | 0 <= r < |done + [current]| :: |(done + [current])[r]| > 0 && RowFits((done + [current])[r], containerWidth, w)
  {
    var next := done + [current];
    forall r | 0 <= r < |next| ensures |next[r]| > 0 && RowFits(next[r], containerWidth, w) {
      if r < |done| {
        assert next[r] == done[r];
      }
    }
  }

  /** Closing a row whose first photo was forced onto it keeps every break forced. */
  lemma GreedySnoc(done: seq<seq<Photo>>, current: seq<Photo>, containerWidth: real, w: Photo -> real)
    requires Greedy(done, containerWidth, w)
    requires |done| > 0 ==> |current| > 0 && RowWidth(done[|done| - 1], w) + w(current[0]) > containerWidth
    ensures Greedy(done + [current], containerWidth, w)
  {
    var next := done + [current];
    forall r | 1 <= r < |next| ensures |next[r]| > 0 && RowWidth(next[r - 1], w) + w(next[r][0]) > containerWidth {
      if r < |done| {
        assert next[r - 1] == done[r - 1] && next[r] == done[r];
      } else {
        assert next[r - 1] == done[|done| - 1] && next[r] == current;
      }
    }
  }

  lemma AppendFits(row: seq<Photo>, p: Photo, containerWidth: real, w: Photo -> real)
    requires RowFits(row, containerWidth, w)
    requires |row| == 0 || RowWidth(row, w) + w(p) <= containerWidth
    ensures RowFits(row + [p], containerWidth, w)
    ensures RowWidth(row + [p], w) == RowWidth(row, w) + w(p)
  {
    var next := row + [p];
    assert next[..|row|] == row;
    forall k | 2 <= k <= |next| ensures RowWidth(next[..k], w) <= containerWidth {
      if k <= |row| {
        assert next[..k] == row[..k];
      } else {
        assert next[..k] == next;
      }
    }
  }

  // ---------------------------------------------------------------------------
  // The packing is determined by the photos and the width

  lemma BreakTooWide(rows: seq<seq<Photo>>, photos: seq<Photo>, containerWidth: real, w: Photo -> real)
    requires Packed(rows, photos, containerWidth, w) && |rows| > 0
    requires |rows[0]| < |photos|
    ensures RowWidth(photos[..|rows[0]| + 1], w) > containerWidth
  {
    var n := |rows[0]|;
    assert photos == rows[0] + Flatten(rows[1..]);
    assert |rows| > 1;
    assert Flatten(rows[1..]) == rows[1] + Flatten(rows[2..]);
    assert photos[n] == rows[1][0];
    assert photos[..n + 1][..n] == rows[0];
  }

  lemma PrefixFits(rows: seq<seq<Photo>>, photos: seq<Photo>, containerWidth: real, k: nat, w: Photo -> real)
    requires Packed(rows, photos, containerWidth, w) && |rows| > 0
    requires 2 <= k <= |rows[0]|
    ensures RowWidth(photos[..k], w) <= containerWidth
  {
    assert photos == rows[0] + Flatten(rows[1..]);
    assert photos[..k] == rows[0][..k];
  }

  lemma FirstRowNotShorter(a: seq<seq<Photo>>, b: seq<seq<Photo>>, photos: seq<Photo>, containerWidth: real, w: Photo -> real)
    requires Packed(a, photos, containerWidth, w) && Packed(b, photos, containerWidth, w)
    requires |a| > 0 && |b| > 0
    ensures |a[0]| >= |b[0]|
  {
    assert photos == b[0] + Flatten(b[1..]);
    if |a[0]| < |b[0]| {
      BreakTooWide(a, photos, containerWidth, w);
      PrefixFits(b, photos, containerWidth, |a[0]| + 1, w);
    }
  }

  lemma PackedTail(rows: seq<seq<Photo>>, photos: seq<Photo>, containerWidth: real, w: Photo -> real)
    requires Packed(rows, photos, containerWidth, w) && |rows| > 0
    ensures photos[..|rows[0]|] == rows[0]
    ensures Packed(rows[1..], photos[|rows[0]|..], containerWidth, w)
  {
    assert photos == rows[0] + Flatten(rows[1..]);
    var tail := rows[1..];
    forall r | 1 <= r < |tail|
      ensures |tail[r]| > 0 && RowWidth(tail[r - 1], w) + w(tail[r][0]) > containerWidth
    {
      assert tail[r - 1] == rows[r] && tail[r] == rows[r + 1];
    }
  }

  /**
   * There is only one greedy packing of a photo list at a given width, so the
   * effect's result is fully characterised by `Packed`.
   */
  lemma {:induction false} PackingUnique(a: seq<seq<Photo>>, b: seq<seq<Photo>>, photos: seq<Photo>, containerWidth: real, w: Photo -> real)
    requires Packed(a, photos, containerWidth, w) && Packed(b, photos, containerWidth, w)
    ensures a == b
    decreases |photos|
  {
    if |a| == 0 || |b| == 0 {
      assert |a| > 0 ==> |photos| > 0;
      assert |b| > 0 ==> |photos| > 0;
    } else {
      FirstRowNotShorter(a, b, photos, containerWidth, w);
      FirstRowNotShorter(b, a, photos, containerWidth, w);
      PackedTail(a, photos, containerWidth, w);
      PackedTail(b, photos, containerWidth, w);
      PackingUnique(a[1..], b[1..], photos[|a[0]|..], containerWidth, w);
      assert a == [a[0]] + a[1..] && b == [b[0]] + b[1..];
    }
  }

  lemma {:induction false} FlattenEmpty(rows: seq<seq<Photo>>)
    requires forall r | 0 <= r < |rows| :: |rows[r]| > 0
    ensures Flatten(rows) == [] <==> rows == []
  {
    if |rows| > 0 {
      assert |rows[0]| > 0;
    }
  }

  /** The only packing of no photos has no rows. */
  lemma PackedEmpty(rows: seq<seq<Photo>>, containerWidth: real, w: Photo -> real)
    requires Packed(rows, [], containerWidth, w)
    ensures rows == []
  {
    FlattenEmpty(rows);
  }

  lemma {:induction false} RowWidthAtLeastMember(row: seq<Photo>, k: nat, w: Photo -> real)
    requires forall q | q in row :: w(q) >= 0.0
    requires k < |row|
    ensures w(row[k]) <= RowWidth(row, w)
    decreases |row|
  {
    var init := row[..|row| - 1];
    assert forall q | q in init :: q in row;
    RowWidthNonNegative(init, w);
    if k < |row| - 1 {
      assert row[k] == init[k];
      RowWidthAtLeastMember(init, k, w);
    }
  }

  lemma {:induction false} RowWidthNonNegative(row: seq<Photo>, w: Photo -> real)
    requires forall q | q in row :: w(q) >= 0.0
    ensures RowWidth(row, w) >= 0.0
    decreases |row|
  {
    if |row| > 0 {
      var init := row[..|row| - 1];
      assert forall q | q in init :: q in row;
      RowWidthNonNegative(init, w);
      assert row[|row| - 1] in row;
    }
  }

  /**
   * With non-negative widths, a photo that shares its row with another one is
   * no wider than the container: a photo wider than the container always sits
   * alone in its row.
   */
  lemma SharedRowsFit(rows: seq<seq<Photo>>, photos: seq<Photo>, containerWidth: real, r: nat, k: nat, w: Photo -> real)
    requires Packed(rows, photos, containerWidth, w)
    requires forall q | q in photos :: w(q) >= 0.0
    requires r < |rows| && k < |rows[r]| && |rows[r]| >= 2
    ensures w(rows[r][k]) <= containerWidth
  {
    var row := rows[r];
    assert row[..|row|] == row;
    FlattenContains(rows, r);
    RowWidthAtLeastMember(row, k, w);
  }

  lemma {:induction false} FlattenContains(rows: seq<seq<Photo>>, r: nat)
    requires r < |rows|
    ensures forall q | q in rows[r] :: q in Flatten(rows)
    decreases |rows|
  {
    if r > 0 {
      FlattenContains(rows[1..], r - 1);
    }
  }

  // ---------------------------------------------------------------------------
  // Global index of a rendered photo

  /** Number of photos in the rows before row `r`. */
  function LengthsBefore(rows: seq<seq<Photo>>, r: nat): nat
    requires r <= |rows|
  {
    if r == 0 then 0 else LengthsBefore(rows, r - 1) + |rows[r - 1]|
  }

  /**
   * `globalIndex` for the `k`-th photo of row `r`: the index in the flattened
   * list is where that very photo sits, so clicking it opens the right photo.
   */
  function GlobalIndex(rows: seq<seq<Photo>>, r: nat, k: nat): (g: nat)
    requires r < |rows| && k < |rows[r]|
    ensures g < |Flatten(rows)| && Flatten(rows)[g] == rows[r][k]
  {
    GlobalIndexSound(rows, r, k);
    LengthsBefore(rows, r) + k
  }

  lemma {:induction false} GlobalIndexSound(rows: seq<seq<Photo>>, r: nat, k: nat)
    requires r < |rows| && k < |rows[r]|
    ensures LengthsBefore(rows, r) + k < |Flatten(rows)|
    ensures Flatten(rows)[LengthsBefore(rows, r) + k] == rows[r][k]
    decreases r
  {
    if r > 0 {
      var tail := rows[1..];
      GlobalIndexSound(tail, r - 1, k);
      LengthsBeforeShift(rows, r);
    }
  }

  lemma {:induction false} LengthsBeforeShift(rows: seq<seq<Photo>>, r: nat)
    requires 0 < r <= |rows|
    ensures LengthsBefore(rows, r) == |rows[0]| + LengthsBefore(rows[1..], r - 1)
    decreases r
  {
    if r > 1 {
      LengthsBeforeShift(rows, r - 1);
    }
  }

  // ---------------------------------------------------------------------------
  // A worked example

  function Sized(id: string, width: Option<real>, height: Option<real>): Photo
  {
    Photo(id, "", id + ".jpg", Some([]), width, height, None, None)
  }

  /**
   * Widths 375 (3:2), 250 (no dimensions) and 500 (2:1) in a 1000-pixel
   * container: the first two share a row and the third starts a new one.
   */
  lemma ThreePhotoLayout()
    ensures var p1 := Sized("p1", Some(1500.0), Some(1000.0));
      var p2 := Sized("p2", None, None);
      var p3 := Sized("p3", Some(2000.0), Some(1000.0));
      forall rows | Packed(rows, [p1, p2, p3], 1000.0, DisplayWidth) :: rows == [[p1, p2], [p3]]
  {
    var p1 := Sized("p1", Some(1500.0), Some(1000.0));
    var p2 := Sized("p2", None, None);
    var p3 := Sized("p3", Some(2000.0), Some(1000.0));
    var expected := [[p1, p2], [p3]];
    assert DisplayWidth(p1) == 375.0 && DisplayWidth(p2) == 250.0 && DisplayWidth(p3) == 500.0;
    assert [p1, p2][..1] == [p1] && [p1, p2][..2] == [p1, p2];
    assert [p1][..0] == [];
    assert RowWidth([p1], DisplayWidth) == 375.0;
    assert RowWidth([p1, p2], DisplayWidth) == 625.0;
    assert expected[1..] == [[p3]] && [[p3]][1..] == [];
    assert Flatten([[p3]]) == [p3] + Flatten([]);
    assert Flatten(expected) == [p1, p2] + [p3];
    assert [p1, p2] + [p3] == [p1, p2, p3];
    assert Packed(expected, [p1, p2, p3], 1000.0, DisplayWidth);
    forall rows | Packed(rows, [p1, p2, p3], 1000.0, DisplayWidth) ensures rows == expected {
      PackingUnique(rows, expected, [p1, p2, p3], 1000.0, DisplayWidth);
    }
  }
}

=== FILE: page.dfy ===
/**
 * The home page's tag filtering (app/page.tsx): the AND filter, the ordered
 * selection that tag clicks toggle, the tag search box, the "popular tags"
 * ranking, and the page state those derive from.
 */
module Page {
  import opened Wrappers
  import opened Seqs
  import opened StringOrder
  import opened Text
  import opened Photos
  import opened TagIndex

  // ---------------------------------------------------------------------------
  // AND filter

  /** Every selected tag is among the photo's tags. */
  predicate Matches(selected: seq<string>, p: Photo)
  {
    forall t | t in selected :: t in TagsOf(p)
  }

  /** `photos.filter(photo => selectedTags.every(...))`. */
  function KeepMatching(selected: seq<string>, photos: seq<Photo>): (r: seq<Photo>)
    ensures Subsequence(r, photos)
    ensures forall p :: p in r <==> p in photos && Matches(selected, p)
    ensures forall p :: Count(r, p) == if Matches(selected, p) then Count(photos, p) else 0
    decreases |photos|
  {
    if |photos| == 0 then []
    else
      var rest := KeepMatching(selected, photos[1..]);
      assert forall p :: p in photos <==> p == photos[0] || p in photos[1..];
      if Matches(selected, photos[0]) then
        assert ([photos[0]] + rest)[1..] == rest;
        [photos[0]] + rest
      else
        rest
  }

  /**
   * The filter effect, with a missing tag list read as empty: no selection
   * shows the whole list; otherwise a photo is shown iff it carries every
   * selected tag, in the original order.
   */
  function Filter(selected: seq<string>, photos: seq<Photo>): (r: seq<Photo>)
    ensures |selected| == 0 ==> r == photos
    ensures forall p :: p in r <==> p in photos && Matches(selected, p)
    ensures forall p :: Count(r, p) == if Matches(selected, p) then Count(photos, p) else 0
    ensures Subsequence(r, photos)
  {
    if |selected| == 0 then SubsequenceRefl(photos); photos else KeepMatching(selected, photos)
  }

  lemma {:induction false} KeepMatchingNarrows(small: seq<string>, large: seq<string>, photos: seq<Photo>)
    requires forall t | t in small :: t in large
    ensures Subsequence(KeepMatching(large, photos), KeepMatching(small, photos))
    decreases |photos|
  {
    if |photos| > 0 {
      KeepMatchingNarrows(small, large, photos[1..]);
      var a := KeepMatching(large, photos[1..]);
      var b := KeepMatching(small, photos[1..]);
      if Matches(large, photos[0]) {
        assert ([photos[0]] + a)[1..] == a && ([photos[0]] + b)[1..] == b;
      } else if Matches(small, photos[0]) {
        assert ([photos[0]] + b)[1..] == b;
        SubsequenceDropFront(a, b, photos[0]);
      }
    }
  }

  lemma SubsequenceDropFront(a: seq<Photo>, b: seq<Photo>, x: Photo)
    requires Subsequence(a, b)
    ensures Subsequence(a, [x] + b)
  {
    assert ([x] + b)[1..] == b;
  }

  lemma {:induction false} KeepMatchingNone(photos: seq<Photo>)
    ensures KeepMatching([], photos) == photos
    decreases |photos|
  {
    if |photos| > 0 {
      KeepMatchingNone(photos[1..]);
    }
  }

  /**
   * Selecting more tags can only narrow the result: the new list is an
   * order-preserving sub-list of the old one.
   */
  lemma FilterNarrows(small: seq<string>, large: seq<string>, photos: seq<Photo>)
    requires forall t | t in small :: t in large
    ensures Subsequence(Filter(large, photos), Filter(small, photos))
  {
    KeepMatchingNarrows(small, large, photos);
    KeepMatchingNone(photos);
  }

  /** The filter as written calls `photo.tags.includes`, which throws when a photo has no tag list. */
  datatype FilterError = TypeError(photoIndex: nat)

  function KeepMatchingAsWritten(selected: seq<string>, photos: seq<Photo>, offset: nat): Result<seq<Photo>, FilterError>
    requires |selected| > 0
    decreases |photos|
  {
    if |photos| == 0 then Success([])
    else if photos[0].tags.None? then Failure(TypeError(offset))
    else
      match KeepMatchingAsWritten(selected, photos[1..], offset + 1)
      case Failure(e) => Failure(e)
      case Success(rest) =>
        Success(if Matches(selected, photos[0]) then [photos[0]] + rest else rest)
  }

  function FilterAsWritten(selected: seq<string>, photos: seq<Photo>): Result<seq<Photo>, FilterError>
  {
    if |selected| == 0 then Success(photos) else KeepMatchingAsWritten(selected, photos, 0)
  }

  function Untagged(): Photo
  {
    Photo("photo-001", "", "a.jpg", None, None, None, None, None)
  }

  /**
   * One photo without a tag list and one selected tag: the filter as written
   * throws, while the corrected filter simply leaves the photo out.
   */
  lemma UntaggedPhotoBreaksFilter()
    ensures FilterAsWritten(["beach"], [Untagged()]).Failure?
    ensures Filter(["beach"], [Untagged()]) == []
  {
    assert !Matches(["beach"], Untagged()) by {
      assert "beach" in ["beach"];
    }
  }

  /** When every photo has a tag list, the filter as written and the corrected one agree. */
  lemma {:induction false} FilterAgreesOnTaggedPhotos(selected: seq<string>, photos: seq<Photo>, offset: nat)
    requires |selected| > 0
    requires forall p | p in photos :: p.tags.Some?
    ensures KeepMatchingAsWritten(selected, photos, offset) == Success(KeepMatching(selected, photos))
    decreases |photos|
  {
    if |photos| > 0 {
      assert photos[0] in photos;
      assert forall p | p in photos[1..] :: p in photos;
      FilterAgreesOnTaggedPhotos(selected, photos[1..], offset + 1);
    }
  }

  // ---------------------------------------------------------------------------
  // Selection: toggle and clear

  /**
   * `handleTagToggle`: an absent tag is appended at the end; a present tag is
   * removed everywhere and the other tags keep their order.
   */
  function Toggle(selected: seq<string>, tag: string): (r: seq<string>)
    ensures tag !in selected ==> r == selected + [tag]
    ensures tag in selected ==> tag !in r && Subsequence(r, selected) && |r| == |selected| - Count(selected, tag)
    ensures forall x :: x in r <==> (x in selected) != (x == tag)
  {
    if tag in selected then
      forall x ensures x in RemoveAll(selected, tag) <==> x in selected && x != tag {
        RemoveAllMembers(selected, tag, x);
      }
      RemoveAll(selected, tag)
    else
      selected + [tag]
  }

  lemma ToggleKeepsDistinct(selected: seq<string>, tag: string)
    requires NoDuplicates(selected)
    ensures NoDuplicates(Toggle(selected, tag))
  {
    if tag in selected {
      RemoveAllKeepsDistinct(selected, tag);
    }
  }

  /** Toggling a tag that is not selected, twice, gives back the original selection. */
  lemma ToggleTwiceRestores(selected: seq<string>, tag: string)
    requires tag !in selected
    ensures Toggle(Toggle(selected, tag), tag) == selected
  {
    var once := selected + [tag];
    assert tag in once;
    assert Toggle(once, tag) == RemoveAll(once, tag);
    RemoveAllSnoc(selected, tag);
  }

  lemma {:induction false} RemoveAllSnoc(xs: seq<string>, x: string)
    requires x !in xs
    ensures RemoveAll(xs + [x], x) == xs
    decreases |xs|
  {
    if |xs| == 0 {
      assert [x][1..] == [];
    } else {
      assert (xs + [x])[1..] == xs[1..] + [x];
      RemoveAllSnoc(xs[1..], x);
      assert xs == [xs[0]] + xs[1..];
    }
  }

  // ---------------------------------------------------------------------------
  // Tag search box

  /** Tags whose lower-case form contains the lower-case search term, in their original order. */
  function SearchTags(tags: seq<string>, term: string): (r: seq<string>)
    ensures forall t :: t in r <==> t in tags && Contains(Lower(t), Lower(term))
    ensures forall t :: Count(r, t) == if Contains(Lower(t), Lower(term)) then Count(tags, t) else 0
    ensures Subsequence(r, tags)
    ensures term == "" ==> r == tags
    decreases |tags|
  {
    if |tags| == 0 then []
    else
      var rest := SearchTags(tags[1..], term);
      assert forall t :: t in tags <==> t == tags[0] || t in tags[1..];
      EmptyTermMatches(tags[0], term);
      if Contains(Lower(tags[0]), Lower(term)) then
        assert ([tags[0]] + rest)[1..] == rest;
        [tags[0]] + rest
      else
        SubsequenceDropFront'(rest, tags[1..], tags[0]);
        assert tags == [tags[0]] + tags[1..];
        rest
  }

  lemma EmptyTermMatches(tag: string, term: string)
    ensures term == "" ==> Contains(Lower(tag), Lower(term))
  {
    ContainsEmpty(Lower(tag));
  }

  lemma SubsequenceDropFront'(a: seq<string>, b: seq<string>, x: string)
    requires Subsequence(a, b)
    ensures Subsequence(a, [x] + b)
  {
    assert ([x] + b)[1..] == b;
  }

  // ---------------------------------------------------------------------------
  // Popular tags: entries sorted by descending count, first five

  predicate NonIncreasing(es: seq<(string, nat)>)
  {
    forall i, j | 0 <= i < j < |es| :: es[i].1 >= es[j].1
  }

  function InsertDesc(e: (string, nat), s: seq<(string, nat)>): (r: seq<(string, nat)>)
    requires NonIncreasing(s)
    ensures NonIncreasing(r)
    ensures multiset(r) == multiset(s) + multiset{e}
    decreases |s|
  {
    if |s| == 0 || e.1 >= s[0].1 then
      DescCons(e, s);
      [e] + s
    else
      var rest := InsertDesc(e, s[1..]);
      DescAfterHead(e, s, rest);
      [s[0]] + rest
  }

  /** An entry with a count at least the first one's can head a non-increasing list. */
  lemma DescCons(e: (string, nat), s: seq<(string, nat)>)
    requires NonIncreasing(s) && (|s| == 0 || e.1 >= s[0].1)
    ensures NonIncreasing([e] + s)
  {
    var r := [e] + s;
    forall i, j | 0 <= i < j < |r| ensures r[i].1 >= r[j].1 {
      assert r[j] == s[j - 1];
      if i > 0 {
        assert r[i] == s[i - 1];
      }
    }
  }

  lemma DescAfterHead(e: (string, nat), s: seq<(string, nat)>, rest: seq<(string, nat)>)
    requires NonIncreasing(s) && |s| > 0 && e.1 < s[0].1
    requires NonIncreasing(rest) && multiset(rest) == multiset(s[1..]) + multiset{e}
    ensures NonIncreasing([s[0]] + rest)
    ensures multiset([s[0]] + rest) == multiset(s) + multiset{e}
  {
    assert s == [s[0]] + s[1..];
    var r := [s[0]] + rest;
    forall z | z in rest ensures s[0].1 >= z.1 {
      assert z in multiset(rest);
      if z != e {
        var k :| 0 <= k < |s[1..]| && s[1..][k] == z;
        assert s[k + 1] == z;
      }
    }
    forall i, j | 0 <= i < j < |r| ensures r[i].1 >= r[j].1 {
      assert r[j] == rest[j - 1];
      if i > 0 {
        assert r[i] == rest[i - 1];
      }
    }
  }

  /** `.sort(([, a], [, b]) => b - a)`: entries by descending count. */
  function SortDesc(es: seq<(string, nat)>): (r: seq<(string, nat)>)
    ensures NonIncreasing(r)
    ensures multiset(r) == multiset(es)
    decreases |es|
  {
    if |es| == 0 then []
    else
      assert es == [es[0]] + es[1..];
      InsertDesc(es[0], SortDesc(es[1..]))
  }

  /**
   * The five highest-count entries: at most five, taken from the input, in
   * non-increasing count order, and no entry left out has a larger count than
   * the smallest one chosen.
   */
  function PopularEntries(es: seq<(string, nat)>): (top: seq<(string, nat)>)
    ensures |top| == if |es| < 5 then |es| else 5
    ensures multiset(top) <= multiset(es)
    ensures NonIncreasing(top)
    ensures forall e | e in multiset(es) - multiset(top) :: 0 < |top| && e.1 <= top[|top| - 1].1
  {
    var sorted := SortDesc(es);
    assert |sorted| == |multiset(sorted)| == |multiset(es)| == |es|;
    var n := if |es| < 5 then |es| else 5;
    PrefixOfSorted(sorted, n);
    var top := sorted[..n];
    assert multiset(es) - multiset(top) == multiset(sorted) - multiset(top);
    top
  }

  /** A prefix of a descending list keeps the order, and whatever follows it is no larger than its last entry. */
  lemma PrefixOfSorted(sorted: seq<(string, nat)>, n: nat)
    requires NonIncreasing(sorted) && n <= |sorted|
    requires n == 0 ==> |sorted| == 0
    ensures multiset(sorted[..n]) <= multiset(sorted)
    ensures NonIncreasing(sorted[..n])
    ensures forall e | e in multiset(sorted) - multiset(sorted[..n]) :: 0 < n && e.1 <= sorted[n - 1].1
  {
    MultisetRest(sorted, n);
    forall e | e in multiset(sorted[n..]) ensures 0 < n && e.1 <= sorted[n - 1].1 {
      var k :| 0 <= k < |sorted[n..]| && sorted[n..][k] == e;
      assert sorted[n + k] == e;
    }
  }

  lemma MultisetRest(s: seq<(string, nat)>, n: nat)
    requires n <= |s|
    ensures multiset(s) - multiset(s[..n]) == multiset(s[n..])
    ensures multiset(s[..n]) <= multiset(s)
  {
    assert s == s[..n] + s[n..];
  }

  /** `popularTags`: the tag names of the top entries. */
  function PopularTags(es: seq<(string, nat)>): seq<string>
  {
    var top := PopularEntries(es);
    seq(|top|, i requires 0 <= i < |top| => top[i].0)
  }

  lemma PopularFromEntries(es: seq<(string, nat)>)
    ensures forall i | 0 <= i < |PopularEntries(es)| :: PopularEntries(es)[i] in es
  {
    var top := PopularEntries(es);
    forall i | 0 <= i < |top| ensures top[i] in es {
      assert top[i] in multiset(top);
    }
  }

  /** An entry whose tag is not among the popular tags was not chosen. */
  lemma NotChosen(es: seq<(string, nat)>, k: nat)
    requires k < |es| && es[k].0 !in PopularTags(es)
    ensures es[k] in multiset(es) - multiset(PopularEntries(es))
  {
    var top := PopularEntries(es);
    var p := PopularTags(es);
    forall m | 0 <= m < |top| ensures top[m] != es[k] {
      assert p[m] == top[m].0;
    }
    assert es[k] in multiset(es);
  }

  /** Entries that list `counts` exactly: each entry carries its key's count and every key has an entry. */
  predicate ListsCounts(es: seq<(string, nat)>, counts: map<string, nat>)
  {
    && (forall i | 0 <= i < |es| :: es[i].0 in counts && es[i].1 == counts[es[i].0])
    && (forall t | t in counts :: exists i | 0 <= i < |es| :: es[i].0 == t)
  }

  lemma PopularCounted(es: seq<(string, nat)>, counts: map<string, nat>)
    requires ListsCounts(es, counts)
    ensures forall i | 0 <= i < |PopularTags(es)| ::
      PopularTags(es)[i] in counts && counts[PopularTags(es)[i]] == PopularEntries(es)[i].1
  {
    PopularFromEntries(es);
    forall i | 0 <= i < |PopularTags(es)| ensures PopularTags(es)[i] in counts && counts[PopularTags(es)[i]] == PopularEntries(es)[i].1 {
      ListedEntryCounted(es, counts, PopularEntries(es)[i]);
    }
  }

  /** Any entry of a listing carries its key's count. */
  lemma ListedEntryCounted(es: seq<(string, nat)>, counts: map<string, nat>, e: (string, nat))
    requires ListsCounts(es, counts) && e in es
    ensures e.0 in counts && counts[e.0] == e.1
  {
    var k :| 0 <= k < |es| && es[k] == e;
  }

  lemma PopularOrdered(es: seq<(string, nat)>, counts: map<string, nat>)
    requires ListsCounts(es, counts)
    ensures var p := PopularTags(es);
      forall i, j | 0 <= i < j < |p| :: p[i] in counts && p[j] in counts && counts[p[i]] >= counts[p[j]]
  {
    PopularCounted(es, counts);
    var top := PopularEntries(es);
    var p := PopularTags(es);
    forall i, j | 0 <= i < j < |p| ensures p[i] in counts && p[j] in counts && counts[p[i]] >= counts[p[j]] {
      assert top[i].1 >= top[j].1;
    }
  }

  lemma PopularDominates(es: seq<(string, nat)>, counts: map<string, nat>)
    requires ListsCounts(es, counts)
    ensures var p := PopularTags(es);
      forall t | t in counts && t !in p :: 0 < |p| && p[|p| - 1] in counts && counts[t] <= counts[p[|p| - 1]]
  {
    PopularCounted(es, counts);
    var top := PopularEntries(es);
    var p := PopularTags(es);
    forall t | t in counts && t !in p ensures 0 < |p| && p[|p| - 1] in counts && counts[t] <= counts[p[|p| - 1]] {
      var k :| 0 <= k < |es| && es[k].0 == t;
      NotChosen(es, k);
      assert counts[t] == es[k].1;
    }
  }

  /**
   * Given entries that list a count map: at most five popular tags, all
   * counted, in non-increasing count order, and every counted tag left out has
   * a count no larger than the smallest chosen one.
   */
  lemma PopularRanked(es: seq<(string, nat)>, counts: map<string, nat>)
    requires ListsCounts(es, counts)
    ensures var p := PopularTags(es);
      && |p| <= 5
      && (forall t | t in p :: t in counts)
      && (forall i, j | 0 <= i < j < |p| :: counts[p[i]] >= counts[p[j]])
      && (forall t | t in counts && t !in p :: 0 < |p| && counts[t] <= counts[p[|p| - 1]])
  {
    PopularCounted(es, counts);
    PopularOrdered(es, counts);
    PopularDominates(es, counts);
  }

  /**
   * On the page's own counts: at most five popular tags, all counted, in
   * non-increasing count order, and every counted tag left out has a count no
   * larger than the smallest chosen one.
   */
  lemma PopularTagsRanked(photos: seq<Photo>)
    ensures var p := PopularTags(TagEntries(photos)); var counts := TagCounts(photos);
      && |p| <= 5
      && (forall t | t in p :: t in counts)
      && (forall i, j | 0 <= i < j < |p| :: counts[p[i]] >= counts[p[j]])
      && (forall t | t in counts && t !in p :: 0 < |p| && counts[t] <= counts[p[|p| - 1]])
  {
    PopularRanked(TagEntries(photos), TagCounts(photos));
  }

  // ---------------------------------------------------------------------------
  // Page state

  /** The parsed `/photos.json` body: an array, an object that may hold a `photos` field, or anything else. */
  datatype Payload = ArrayValue(items: seq<Photo>) | ObjectValue(photosField: Option<Payload>) | OtherValue

  /**
   * `data.photos` if it is an array, else `data` if it is an array, else
   * empty; a failed fetch or parse (`None`) also leaves the collection empty.
   */
  function NormaliseLoad(data: Option<Payload>): seq<Photo>
  {
    match data
    case Some(ObjectValue(Some(ArrayValue(items)))) => items
    case Some(ArrayValue(items)) => items
    case _ => []
  }

  /**
   * Both accepted shapes deliver the same photos; a failure, a value of any
   * other shape, or a `photos` field that is not an array yields an empty
   * collection.
   */
  lemma LoadShapesAgree(items: seq<Photo>)
    ensures NormaliseLoad(Some(ArrayValue(items))) == items
    ensures NormaliseLoad(Some(ObjectValue(Some(ArrayValue(items))))) == items
    ensures NormaliseLoad(None) == []
    ensures NormaliseLoad(Some(ObjectValue(None))) == []
    ensures NormaliseLoad(Some(OtherValue)) == []
    ensures forall q: Payload | !q.ArrayValue? :: NormaliseLoad(Some(ObjectValue(Some(q)))) == []
  {
  }

  datatype PageState = PageState(
    photos: seq<Photo>,
    filtered: seq<Photo>,
    selected: seq<string>,
    allTags: seq<string>,
    tagCounts: map<string, nat>,
    searchTerm: string)

  /** Every derived field agrees with the photos and the selection, as after the effects have run. */
  predicate Consistent(s: PageState)
  {
    && s.filtered == Filter(s.selected, s.photos)
    && s.allTags == UniqueTags(s.photos)
    && s.tagCounts == TagCounts(s.photos)
  }

  function Initial(): (r: PageState)
    ensures Consistent(r)
    ensures r.photos == [] && r.selected == []
  {
    EmptyCollection();
    PageState([], [], [], [], map[], "")
  }

  /**
   * `loadPhotos` followed by the filter effect: the new photos replace the
   * old, the index is recomputed, and the selection is kept and reapplied.
   */
  function Load(s: PageState, data: Option<Payload>): (r: PageState)
    ensures Consistent(r)
    ensures r.photos == NormaliseLoad(data)
    ensures r.selected == s.selected && r.searchTerm == s.searchTerm
  {
    var photos := NormaliseLoad(data);
    PageState(photos, Filter(s.selected, photos), s.selected, UniqueTags(photos), TagCounts(photos), s.searchTerm)
  }

  function ToggleTag(s: PageState, tag: string): (r: PageState)
    ensures Consistent(s) ==> Consistent(r)
    ensures r.photos == s.photos && r.selected == Toggle(s.selected, tag)
    ensures forall p :: p in r.filtered <==> p in s.photos && Matches(Toggle(s.selected, tag), p)
  {
    var selected := Toggle(s.selected, tag);
    s.(selected := selected, filtered := Filter(selected, s.photos))
  }

  /** `handleClearFilters`: no selection, so every photo is shown again. */
  function ClearFilters(s: PageState): (r: PageState)
    ensures Consistent(s) ==> Consistent(r)
    ensures r.selected == [] && r.filtered == r.photos && r.photos == s.photos
  {
    s.(selected := [], filtered := Filter([], s.photos))
  }

  function SetSearch(s: PageState, term: string): (r: PageState)
    ensures Consistent(s) ==> Consistent(r)
    ensures r.photos == s.photos && r.selected == s.selected && r.searchTerm == term
  {
    s.(searchTerm := term)
  }

  /** `filteredTags`: the tag list shown under the search box. */
  function VisibleTags(s: PageState): (r: seq<string>)
    requires Consistent(s)
    ensures forall t :: t in r <==> t in AllTags(s.photos) && Contains(Lower(t), Lower(s.searchTerm))
    ensures StrictlyAscending(r)
  {
    var r := SearchTags(s.allTags, s.searchTerm);
    SubsequenceAscending(r, s.allTags);
    r
  }

  lemma {:induction false} SubsequenceAscending(a: seq<string>, b: seq<string>)
    requires Subsequence(a, b) && StrictlyAscending(b)
    ensures StrictlyAscending(a)
    decreases |b|
  {
    if a != [] {
      if a[0] == b[0] && Subsequence(a[1..], b[1..]) {
        SubsequenceAscending(a[1..], b[1..]);
        SubsequenceMembers(a[1..], b[1..]);
        forall j | 0 < j < |a| ensures Less(a[0], a[j]) {
          assert a[j] in a[1..];
          var k :| 0 <= k < |b[1..]| && b[1..][k] == a[j];
          assert b[k + 1] == a[j];
        }
      } else {
        SubsequenceAscending(a, b[1..]);
      }
    }
  }

  /** The "asignaciones totales" figure equals the total number of tag assignments. */
  function TotalAssignments(s: PageState): (n: nat)
    requires Consistent(s)
    ensures n == |AllTags(s.photos)|
  {
    TotalAssignmentsIsTagTotal(s.photos);
    SumCounts(TagEntries(s.photos))
  }
}

=== FILE: photos.dfy ===
/** The photo record every view of the gallery is built from (types/photo.ts). */
module Photos {
  import opened Wrappers

  /**
   * One catalogue entry. The record comes from a JSON file, so `tags` may be
   * missing at run time although the declared type requires it; `width` and
   * `height` are JSON numbers, modelled as exact reals.
   */
  datatype Photo = Photo(
    id: string,
    file: string,
    filename: string,
    tags: Option<seq<string>>,
    width: Option<real>,
    height: Option<real>,
    caption: Option<string>,
    date: Option<string>)

  /** `photo.tags || []`: a missing tag list reads as empty. */
  function TagsOf(p: Photo): seq<string>
  {
    p.tags.GetOr([])
  }

  /** `photos.flatMap(photo => photo.tags || [])`: every tag assignment, photo by photo. */
  function AllTags(photos: seq<Photo>): seq<string>
  {
    if |photos| == 0 then [] else TagsOf(photos[0]) + AllTags(photos[1..])
  }

  lemma {:induction false} AllTagsConcat(a: seq<Photo>, b: seq<Photo>)
    ensures AllTags(a + b) == AllTags(a) + AllTags(b)
    decreases |a|
  {
    if |a| == 0 {
      assert a + b == b;
    } else {
      assert (a + b)[1..] == a[1..] + b;
      AllTagsConcat(a[1..], b);
    }
  }

  /** Removing the photo at `k` removes one copy of it. */
  lemma RemoveAtMultiset(d: seq<Photo>, k: nat)
    requires k < |d|
    ensures multiset(d[..k] + d[k + 1..]) == multiset(d) - multiset{d[k]}
  {
    assert d == d[..k] + [d[k]] + d[k + 1..];
  }

  /** The tag assignments of `d`, split around the photo at `k`. */
  lemma AllTagsSplitAt(d: seq<Photo>, k: nat)
    requires k < |d|
    ensures AllTags(d) == AllTags(d[..k]) + (TagsOf(d[k]) + AllTags(d[k + 1..]))
  {
    var head, tail := d[..k], d[k..];
    assert AllTags(d) == AllTags(head) + AllTags(tail) by {
      assert head + tail == d;
      AllTagsConcat(head, tail);
    }
    assert AllTags(tail) == TagsOf(d[k]) + AllTags(d[k + 1..]) by {
      assert tail[0] == d[k] && tail[1..] == d[k + 1..];
    }
  }

  /** The tag assignments of `d` are those of the photo at `k` plus those of the rest. */
  lemma AllTagsRemoveAt(d: seq<Photo>, k: nat)
    requires k < |d|
    ensures multiset(AllTags(d)) == multiset(TagsOf(d[k])) + multiset(AllTags(d[..k] + d[k + 1..]))
  {
    AllTagsSplitAt(d, k);
    AllTagsConcat(d[..k], d[k + 1..]);
    var a, t, b := AllTags(d[..k]), TagsOf(d[k]), AllTags(d[k + 1..]);
    assert multiset(a + (t + b)) == multiset(a) + multiset(t) + multiset(b);
    assert multiset(a + b) == multiset(a) + multiset(b);
  }

  /** Reordering the photos only reorders the tag assignments. */
  lemma {:induction false} AllTagsPermutation(c: seq<Photo>, d: seq<Photo>)
    requires multiset(c) == multiset(d)
    ensures multiset(AllTags(c)) == multiset(AllTags(d))
    decreases |c|
  {
    if |c| == 0 {
      assert |d| == |multiset(d)| == 0;
    } else {
      var p := c[0];
      assert p in multiset(d);
      var k :| 0 <= k < |d| && d[k] == p;
      var rest := d[..k] + d[k + 1..];
      RemoveAtMultiset(d, k);
      assert c == [p] + c[1..];
      assert multiset(c[1..]) == multiset(rest);
      AllTagsPermutation(c[1..], rest);
      AllTagsRemoveAt(d, k);
    }
  }
}

=== FILE: process_photos.dfy ===
/**
 * The pure part of the metadata script (scripts/process_photos.py): tag
 * extraction from one image's metadata, the de-duplicated and sorted image
 * list, the photo ids and records, and the summary written to the JSON file.
 * Running exiftool, the directory scan itself and the file writes are
 * parameters: the metadata of each image and the directory listing are given.
 */
module PhotoScript {
  import opened Wrappers
  import opened Seqs
  import opened Text
  import opened StringOrder

  /** One metadata value as exiftool's JSON delivers it; list items are taken as their `str()` rendering. */
  datatype MetaValue = MString(text: string) | MList(items: seq<string>) | MNumber(n: int) | MNull | MOther

  type Metadata = map<string, MetaValue>

  /** The fields consulted for tags, in the order they are consulted. */
  const TagFields: seq<string> := ["Keywords", "Subject", "XPKeywords", "IPTCCode", "Category", "SupplementalCategories"]

  /** The candidate separators, in priority order; the last is backslash followed by `n`, not a newline. */
  const Separators: seq<string> := [",", ";", "|", "/", "\\n"]

  // ---------------------------------------------------------------------------
  // Tag extraction

  /** A tag as it is kept: non-empty and without surrounding whitespace. */
  predicate CleanTag(t: string)
  {
    t != "" && PyStrip(t) == t
  }

  /** Some element of `xs` strips to `t`. */
  predicate StripsTo(xs: seq<string>, t: string)
  {
    exists x | x in xs :: PyStrip(x) == t
  }

  /** `[x.strip() for x in xs if x.strip()]`. */
  function KeepStripped(xs: seq<string>): (r: seq<string>)
    ensures forall t | t in r :: CleanTag(t)
    ensures |r| <= |xs|
    decreases |xs|
  {
    if |xs| == 0 then []
    else
      var rest := KeepStripped(xs[1..]);
      var t := PyStrip(xs[0]);
      if t == "" then rest
      else
        StripOfStripped(t, IsPySpace);
        [t] + rest
  }

  /** A string is kept exactly when it is the non-empty stripped form of some element. */
  lemma {:induction false} KeepStrippedMembers(xs: seq<string>)
    ensures forall t :: t in KeepStripped(xs) <==> t != "" && StripsTo(xs, t)
    decreases |xs|
  {
    if |xs| > 0 {
      KeepStrippedMembers(xs[1..]);
      StripsToCons(xs);
      var r := KeepStripped(xs);
      var rest := KeepStripped(xs[1..]);
      var h := PyStrip(xs[0]);
      if h == "" {
        assert r == rest;
      } else {
        assert r == [h] + rest;
        assert forall t :: t in r <==> t == h || t in rest;
      }
    }
  }

  lemma StripsToCons(xs: seq<string>)
    requires |xs| > 0
    ensures forall t :: StripsTo(xs, t) <==> PyStrip(xs[0]) == t || StripsTo(xs[1..], t)
  {
    forall t ensures StripsTo(xs, t) <==> PyStrip(xs[0]) == t || StripsTo(xs[1..], t) {
      if StripsTo(xs, t) {
        var x :| x in xs && PyStrip(x) == t;
        if x != xs[0] {
          assert x in xs[1..];
        }
      }
      if StripsTo(xs[1..], t) {
        var x :| x in xs[1..] && PyStrip(x) == t;
        assert x in xs;
      }
    }
  }

  /** Index of the first separator of `seps[from..]` that occurs in `v`; none of the earlier ones occurs. */
  function FirstSeparator(v: string, seps: seq<string>, from: nat): (r: Option<nat>)
    requires from <= |seps|
    requires forall j | 0 <= j < from :: !Contains(v, seps[j])
    ensures r.Some? ==> r.value < |seps| && Contains(v, seps[r.value]) && forall j | 0 <= j < r.value :: !Contains(v, seps[j])
    ensures r.None? <==> forall j | 0 <= j < |seps| :: !Contains(v, seps[j])
    decreases |seps| - from
  {
    if from == |seps| then None
    else if Contains(v, seps[from]) then Some(from)
    else FirstSeparator(v, seps, from + 1)
  }

  /** The separator a stripped string value is split on: the first listed one that occurs in it. */
  function ChooseSeparator(v: string): (r: Option<nat>)
    ensures r.Some? ==> r.value < |Separators| && Contains(v, Separators[r.value])
    ensures r.Some? ==> |Separators[r.value]| > 0
    ensures r.Some? ==> forall j | 0 <= j < r.value :: !Contains(v, Separators[j])
    ensures r.None? <==> forall j | 0 <= j < |Separators| :: !Contains(v, Separators[j])
  {
    var r := FirstSeparator(v, Separators, 0);
    assert forall j | 0 <= j < |Separators| :: |Separators[j]| > 0;
    r
  }

  /**
   * The tags of a string value: nothing when it is blank, the stripped value
   * when no separator occurs in it, otherwise its stripped non-empty pieces
   * around the chosen separator.
   */
  function StringTags(s: string): (r: seq<string>)
    ensures forall t | t in r :: CleanTag(t)
    ensures PyStrip(s) == "" ==> r == []
  {
    var v := PyStrip(s);
    if v == "" then []
    else
      match ChooseSeparator(v)
      case None => SingleTag(v)
      case Some(i) => KeepStripped(Split(v, Separators[i]))
  }

  function SingleTag(v: string): (r: seq<string>)
    requires v != "" && !IsPySpace(v[0]) && !IsPySpace(v[|v| - 1])
    ensures forall t | t in r :: CleanTag(t)
  {
    StripOfStripped(v, IsPySpace);
    [v]
  }

  /** The tags one field contributes: list items, or the pieces of a string value; anything else gives none. */
  function FieldTags(value: MetaValue): (r: seq<string>)
    ensures forall t | t in r :: CleanTag(t)
    ensures !value.MString? && !value.MList? ==> r == []
    ensures value.MString? && PyStrip(value.text) == "" ==> r == []
  {
    match value
    case MList(items) => KeepStripped(items)
    case MString(s) => StringTags(s)
    case MNumber(_) => []
    case MNull => []
    case MOther => []
  }

  /** One of `fields` is present in `metadata` and yields `t`. */
  predicate FieldYields(metadata: Metadata, fields: seq<string>, t: string)
  {
    exists f | f in fields :: f in metadata && t in FieldTags(metadata[f])
  }

  /** The tags the fields of `fields` present in `metadata` yield, in consultation order. */
  function CollectTags(metadata: Metadata, fields: seq<string>): (r: seq<string>)
    ensures forall t | t in r :: CleanTag(t)
    ensures forall t :: t in r <==> FieldYields(metadata, fields, t)
    decreases |fields|
  {
    if |fields| == 0 then []
    else
      var f := fields[0];
      var here := if f in metadata then FieldTags(metadata[f]) else [];
      var rest := CollectTags(metadata, fields[1..]);
      assert forall g :: g in fields <==> g == f || g in fields[1..];
      here + rest
  }

  /**
   * `extract_tags`: the distinct tags found in the six fields, in ascending
   * order; each is non-empty and carries no surrounding whitespace, and a tag
   * is in the result exactly when one of the six fields yields it.
   */
  function ExtractTags(metadata: Metadata): (r: seq<string>)
    ensures StrictlyAscending(r)
    ensures forall t | t in r :: CleanTag(t)
    ensures forall t :: t in r <==> FieldYields(metadata, TagFields, t)
  {
    var tags := CollectTags(metadata, TagFields);
    var r := SortedUnique(tags);
    r
  }

  /** A string value with no separator in it gives its stripped self as the only tag. */
  lemma NoSeparatorWholeValue(s: string)
    requires PyStrip(s) != ""
    requires forall j | 0 <= j < |Separators| :: !Contains(PyStrip(s), Separators[j])
    ensures FieldTags(MString(s)) == [PyStrip(s)]
  {
  }

  /**
   * A string value containing a separator gives the stripped pieces between its
   * occurrences, and the pieces join back to the stripped value.
   */
  lemma SeparatedValuePieces(s: string)
    requires ChooseSeparator(PyStrip(s)).Some?
    ensures var v := PyStrip(s); var sep := Separators[ChooseSeparator(v).value];
      v != "" && FieldTags(MString(s)) == KeepStripped(Split(v, sep)) && Join(Split(v, sep), sep) == v
  {
  }

  /** A clean first element is kept as it is. */
  lemma KeepStrippedClean(x: string, xs: seq<string>)
    requires CleanTag(x)
    ensures KeepStripped([x] + xs) == [x] + KeepStripped(xs)
  {
    assert ([x] + xs)[1..] == xs;
  }

  lemma KeepStrippedTwo(x: string, y: string)
    requires CleanTag(x) && CleanTag(y)
    ensures KeepStripped([x, y]) == [x, y]
  {
    KeepStrippedClean(y, []);
    assert [y] + [] == [y];
    KeepStrippedClean(x, [y]);
    assert [x] + [y] == [x, y];
  }

  /**
   * The first occurrence of a one-character `sep` in `x + sep + y` is right
   * after `x` when `x` does not contain it. (A longer separator could start
   * inside `x` and end inside `sep`.)
   */
  lemma IndexAfterPrefix(x: string, sep: string, y: string)
    requires |sep| == 1 && !Contains(x, sep)
    ensures IndexOf(x + sep + y, sep) == Some(|x|)
  {
    var v := x + sep + y;
    assert v[|x|..|x| + |sep|] == sep;
    assert OccursAt(v, sep, |x|);
    match IndexOf(v, sep)
    case None =>
    case Some(i) =>
      if i < |x| {
        assert v[i..i + |sep|] == x[i..i + |sep|];
        assert OccursAt(x, sep, i);
      }
  }

  /** Splitting `x + sep + y` gives `x` and `y` when neither contains the separator. */
  lemma SplitTwo(x: string, sep: string, y: string)
    requires |sep| == 1 && !Contains(x, sep) && !Contains(y, sep)
    ensures Split(x + sep + y, sep) == [x, y]
  {
    var v := x + sep + y;
    IndexAfterPrefix(x, sep, y);
    assert v[..|x|] == x && v[|x| + |sep|..] == y;
    assert Split(y, sep) == [y];
  }

  lemma CleanEnds(t: string)
    requires CleanTag(t)
    ensures !IsPySpace(t[0]) && !IsPySpace(t[|t| - 1])
  {
  }

  /**
   * A string value is split on the first separator in priority order, not on
   * the first one in the text: with no separator in `x`, `x + "," + y` gives
   * exactly `x` and `y`, whatever lower-ranked separators `y` holds.
   */
  lemma CommaRanksFirst(x: string, y: string)
    requires CleanTag(x) && CleanTag(y)
    requires forall j | 0 <= j < |Separators| :: !Contains(x, Separators[j])
    requires !Contains(y, ",")
    ensures FieldTags(MString(x + "," + y)) == [x, y]
  {
    var v := x + "," + y;
    CleanEnds(x);
    CleanEnds(y);
    assert v[0] == x[0] && v[|v| - 1] == y[|y| - 1];
    StripOfStripped(v, IsPySpace);
    assert v[|x|..|x| + 1] == ",";
    assert OccursAt(v, ",", |x|);
    assert Separators[0] == ",";
    assert ChooseSeparator(v) == Some(0);
    assert !Contains(x, ",") by {
      assert !Contains(x, Separators[0]);
    }
    SplitTwo(x, ",", y);
    KeepStrippedTwo(x, y);
  }

  /** A value tags can come from: a string or a list. */
  predicate Taggable(m: Metadata, f: string)
  {
    f in m && (m[f].MString? || m[f].MList?)
  }

  /** A field yields the same tags in two metadata maps that agree on whether it is taggable and on its taggable value. */
  lemma FieldAgrees(m1: Metadata, m2: Metadata, f: string, t: string)
    requires Taggable(m1, f) <==> Taggable(m2, f)
    requires Taggable(m1, f) ==> m1[f] == m2[f]
    ensures (f in m1 && t in FieldTags(m1[f])) <==> (f in m2 && t in FieldTags(m2[f]))
  {
  }

  /** Changing anything outside the six fields, or adding values that are neither strings nor lists, changes no tag. */
  lemma OnlyTagFieldsCount(m1: Metadata, m2: Metadata)
    requires forall f | f in TagFields :: Taggable(m1, f) <==> Taggable(m2, f)
    requires forall f | f in TagFields && Taggable(m1, f) && Taggable(m2, f) :: m1[f] == m2[f]
    ensures ExtractTags(m1) == ExtractTags(m2)
  {
    forall t ensures FieldYields(m1, TagFields, t) <==> FieldYields(m2, TagFields, t) {
      forall f | f in TagFields {
        FieldAgrees(m1, m2, f, t);
      }
    }
    AscendingUnique(ExtractTags(m1), ExtractTags(m2));
  }

  /** Metadata holding a single `Keywords` field yields exactly that field's tags. */
  lemma KeywordsOnly(v: MetaValue, t: string)
    ensures FieldYields(map["Keywords" := v], TagFields, t) <==> t in FieldTags(v)
  {
    var m := map["Keywords" := v];
    assert TagFields[0] == "Keywords";
    if t in FieldTags(v) {
      assert "Keywords" in m && m["Keywords"] == v;
    }
    if FieldYields(m, TagFields, t) {
      var f :| f in TagFields && f in m && t in FieldTags(m[f]);
      assert f in m.Keys;
      assert m.Keys == {"Keywords"};
    }
  }

  /** Feeding the extracted tags back as a `Keywords` list reproduces them: extraction is a normal form. */
  lemma ExtractTagsIsNormalForm(m: Metadata)
    ensures ExtractTags(map["Keywords" := MList(ExtractTags(m))]) == ExtractTags(m)
  {
    var tags := ExtractTags(m);
    var m' := map["Keywords" := MList(tags)];
    forall t ensures t in ExtractTags(m') <==> t in tags {
      KeywordsOnly(MList(tags), t);
      KeepStrippedMembers(tags);
      if t in tags {
        assert CleanTag(t);
        assert StripsTo(tags, t);
      }
      if StripsTo(tags, t) {
        var x :| x in tags && PyStrip(x) == t;
        assert CleanTag(x);
      }
    }
    AscendingUnique(ExtractTags(m'), tags);
  }

  // ---------------------------------------------------------------------------
  // Image discovery

  /** The glob patterns `*.jpg`, `*.jpeg`, ... in scan order; matching is case-sensitive. */
  const ImageExtensions: seq<string> := [".jpg", ".jpeg", ".JPG", ".JPEG", ".png", ".PNG", ".tiff", ".TIFF"]

  predicate EndsWith(s: string, suffix: string)
  {
    |suffix| <= |s| && s[|s| - |suffix|..] == suffix
  }

  predicate IsImageName(name: string)
  {
    exists e | e in ImageExtensions :: EndsWith(name, e)
  }

  /** The names matching each pattern in turn, one pass over the listing per pattern. */
  function Candidates(files: seq<string>, exts: seq<string>): (r: seq<string>)
    ensures forall x :: x in r <==> x in files && exists e | e in exts :: EndsWith(x, e)
    decreases |exts|
  {
    if |exts| == 0 then []
    else
      assert forall e :: e in exts <==> e == exts[0] || e in exts[1..];
      FilterEnding(files, exts[0]) + Candidates(files, exts[1..])
  }

  /** The names of `files` ending in `e`, in listing order. */
  function FilterEnding(files: seq<string>, e: string): (r: seq<string>)
    ensures forall x :: x in r <==> x in files && EndsWith(x, e)
    decreases |files|
  {
    if |files| == 0 then []
    else
      assert forall x :: x in files <==> x == files[0] || x in files[1..];
      (if EndsWith(files[0], e) then [files[0]] else []) + FilterEnding(files[1..], e)
  }

  /** The candidate names, first per lower-cased name, then sorted by lower-cased name. */
  function SortedImages(files: seq<string>): seq<string>
  {
    var d := DistinctBy(Candidates(files, ImageExtensions), Lower);
    SortBy(d, Lower)
  }

  lemma SortedImagesMembers(files: seq<string>)
    ensures forall x :: x in SortedImages(files) ==> x in files && IsImageName(x)
  {
    var c := Candidates(files, ImageExtensions);
    var d := DistinctBy(c, Lower);
    var r := SortBy(d, Lower);
    SubsequenceMembers(d, c);
    forall x | x in r ensures x in files && IsImageName(x) {
      assert x in multiset(r);
      assert x in d;
      assert x in c;
    }
  }

  lemma SortedImagesCover(files: seq<string>)
    ensures forall x :: x in files && IsImageName(x) ==> exists y | y in SortedImages(files) :: Lower(y) == Lower(x)
  {
    var c := Candidates(files, ImageExtensions);
    var d := DistinctBy(c, Lower);
    var r := SortBy(d, Lower);
    forall x | x in files && IsImageName(x) ensures exists y | y in r :: Lower(y) == Lower(x) {
      assert x in c;
      assert Lower(x) in KeySet(c, Lower);
      var y :| y in d && Lower(y) == Lower(x);
      assert y in multiset(d);
      assert y in r;
    }
  }

  lemma AscendingDistinct(r: seq<string>)
    requires AscendingBy(r, Lower)
    ensures DistinctKeys(r, Lower)
  {
    forall i, j | 0 <= i < j < |r| ensures Lower(r[i]) != Lower(r[j]) {
      assert Less(Lower(r[i]), Lower(r[j]));
      LessIrreflexive(Lower(r[i]));
    }
  }

  /**
   * `find_images`: the image names of the listing, keeping the first name
   * found for each lower-cased name, sorted by lower-cased name.
   */
  function FindImages(files: seq<string>): (r: seq<string>)
    ensures AscendingBy(r, Lower)
    ensures DistinctKeys(r, Lower)
    ensures forall x :: x in r ==> x in files && IsImageName(x)
    ensures forall x :: x in files && IsImageName(x) ==> exists y | y in r :: Lower(y) == Lower(x)
  {
    var r := SortedImages(files);
    SortedImagesMembers(files);
    SortedImagesCover(files);
    AscendingDistinct(r);
    r
  }

  // ---------------------------------------------------------------------------
  // Photo ids

  function DigitChar(d: nat): char
    requires d < 10
  {
    ('0' as int + d) as char
  }

  predicate AllDigits(s: string)
  {
    forall i | 0 <= i < |s| :: '0' <= s[i] <= '9'
  }

  /** The decimal numeral of `n`, without leading zeros. */
  function Decimal(n: nat): (s: string)
    ensures |s| >= 1 && AllDigits(s)
    ensures |s| > 1 ==> s[0] != '0'
    decreases n
  {
    if n < 10 then [DigitChar(n)] else Decimal(n / 10) + [DigitChar(n % 10)]
  }

  /** The number a string of decimal digits denotes; leading zeros are allowed. */
  function DecimalValue(s: string): nat
    requires AllDigits(s)
    decreases |s|
  {
    if |s| == 0 then 0 else DecimalValue(s[..|s| - 1]) * 10 + (s[|s| - 1] as int - '0' as int)
  }

  lemma {:induction false} DecimalRoundTrip(n: nat)
    ensures DecimalValue(Decimal(n)) == n
    decreases n
  {
    if n >= 10 {
      var s := Decimal(n);
      assert s[..|s| - 1] == Decimal(n / 10);
      DecimalRoundTrip(n / 10);
    }
  }

  lemma {:induction false} LeadingZeroValue(s: string)
    requires AllDigits(s)
    ensures DecimalValue("0" + s) == DecimalValue(s)
    decreases |s|
  {
    if |s| > 0 {
      assert ("0" + s)[..|s|] == "0" + s[..|s| - 1];
      LeadingZeroValue(s[..|s| - 1]);
    }
  }

  function Zeros(n: nat): (z: string)
    ensures |z| == n && AllDigits(z)
  {
    seq(n, _ => '0')
  }

  /** Python's `{:0<width>d}` padding: zeros in front up to `width` characters. */
  function ZeroPad(s: string, width: nat): (r: string)
    ensures |r| == if |s| >= width then |s| else width
    ensures r[|r| - |s|..] == s
    ensures forall i | 0 <= i < |r| - |s| :: r[i] == '0'
  {
    if |s| >= width then s else Zeros(width - |s|) + s
  }

  lemma {:induction false} ZerosValue(n: nat, s: string)
    requires AllDigits(s)
    ensures AllDigits(Zeros(n) + s) && DecimalValue(Zeros(n) + s) == DecimalValue(s)
    decreases n
  {
    if n == 0 {
      assert Zeros(n) + s == s;
    } else {
      ZerosValue(n - 1, s);
      assert Zeros(n) + s == "0" + (Zeros(n - 1) + s);
      LeadingZeroValue(Zeros(n - 1) + s);
    }
  }

  lemma PaddedValue(s: string, width: nat)
    requires AllDigits(s)
    ensures AllDigits(ZeroPad(s, width)) && DecimalValue(ZeroPad(s, width)) == DecimalValue(s)
  {
    if |s| < width {
      ZerosValue(width - |s|, s);
    }
  }

  const IdPrefix: string := "photo-"

  /** `f"photo-{index+1:03d}"`. */
  function PhotoId(index: nat): (id: string)
    ensures |id| >= |IdPrefix| + 3 && id[..|IdPrefix|] == IdPrefix
    ensures AllDigits(id[|IdPrefix|..])
    ensures |id| > |IdPrefix| + 3 ==> id[|IdPrefix|] != '0'
  {
    var digits := ZeroPad(Decimal(index + 1), 3);
    PaddedValue(Decimal(index + 1), 3);
    assert (IdPrefix + digits)[|IdPrefix|..] == digits;
    IdPrefix + digits
  }

  /** The number after the prefix of a photo id is the image's position, counted from one. */
  lemma PhotoIdNumber(index: nat)
    ensures DecimalValue(PhotoId(index)[|IdPrefix|..]) == index + 1
  {
    var digits := ZeroPad(Decimal(index + 1), 3);
    assert PhotoId(index)[|IdPrefix|..] == digits;
    PaddedValue(Decimal(index + 1), 3);
    DecimalRoundTrip(index + 1);
  }

  /** Different images get different ids. */
  lemma PhotoIdInjective(i: nat, j: nat)
    requires PhotoId(i) == PhotoId(j)
    ensures i == j
  {
    PhotoIdNumber(i);
    PhotoIdNumber(j);
  }

  lemma PadOne()
    ensures ZeroPad("1", 3) == "001"
  {
    assert Zeros(2) == "00";
  }

  lemma DecimalOne()
    ensures Decimal(1) == "1"
  {
  }

  /** Padding reaches three digits. */
  lemma FirstPhotoId()
    ensures PhotoId(0) == "photo-001"
  {
    DecimalOne();
    PadOne();
    assert PhotoId(0) == IdPrefix + ZeroPad(Decimal(1), 3);
  }

  /** Numbers longer than three digits are kept whole. */
  lemma ThousandthPhotoId()
    ensures PhotoId(999) == "photo-1000"
  {
    assert Decimal(1) == "1";
    assert Decimal(10) == "10" by {
      assert 10 / 10 == 1 && 10 % 10 == 0;
    }
    assert Decimal(100) == "100" by {
      assert 100 / 10 == 10 && 100 % 10 == 0;
    }
    assert Decimal(1000) == "1000" by {
      assert 1000 / 10 == 100 && 1000 % 10 == 0;
    }
    assert ZeroPad("1000", 3) == "1000";
  }

  // ---------------------------------------------------------------------------
  // Photo records

  /** One entry of the `photos` array written to the JSON file. */
  datatype PhotoRecord = PhotoRecord(
    id: string, filename: string, path: string, tags: seq<string>,
    date: MetaValue, width: MetaValue, height: MetaValue,
    caption: MetaValue, software: MetaValue, camera: MetaValue)

  /** `metadata.get(key, default)`. */
  function Get(metadata: Metadata, key: string, default: MetaValue): MetaValue
  {
    if key in metadata then metadata[key] else default
  }

  /** exiftool answered with a non-empty object; an empty one counts as no metadata. */
  predicate HasMetadata(metadata: Option<Metadata>)
  {
    metadata.Some? && metadata.value != map[]
  }

  /** The record built from an image's name, position and non-empty metadata. */
  function MakeRecord(name: string, index: nat, m: Metadata): PhotoRecord
  {
    PhotoRecord(
      PhotoId(index), name, "content/" + name, ExtractTags(m),
      Get(m, "DateTimeOriginal", Get(m, "ModifyDate", MString(""))),
      Get(m, "ImageWidth", MNull), Get(m, "ImageHeight", MNull),
      Get(m, "Caption", Get(m, "Description", MString(""))),
      Get(m, "Software", MString("")), Get(m, "Model", MString("")))
  }

  /**
   * `process_image` for the image at position `index` (from zero), given what
   * exiftool reported for it: no record without metadata; otherwise the id
   * from the position, the path under `content/`, the extracted tags, and
   * each other field from its first present source key.
   */
  function ProcessImage(name: string, index: nat, metadata: Option<Metadata>): (r: Option<PhotoRecord>)
    ensures r.Some? <==> HasMetadata(metadata)
    ensures r.Some? ==> r.value.id == PhotoId(index) && r.value.filename == name && r.value.path == "content/" + name
    ensures r.Some? ==> r.value.tags == ExtractTags(metadata.value)
    ensures r.Some? ==> var m := metadata.value;
      r.value.date == (if "DateTimeOriginal" in m then m["DateTimeOriginal"] else if "ModifyDate" in m then m["ModifyDate"] else MString(""))
    ensures r.Some? ==> var m := metadata.value;
      r.value.caption == (if "Caption" in m then m["Caption"] else if "Description" in m then m["Description"] else MString(""))
    ensures r.Some? ==> var m := metadata.value;
      r.value.width == (if "ImageWidth" in m then m["ImageWidth"] else MNull)
    ensures r.Some? ==> var m := metadata.value;
      r.value.height == (if "ImageHeight" in m then m["ImageHeight"] else MNull)
    ensures r.Some? ==> var m := metadata.value;
      r.value.software == (if "Software" in m then m["Software"] else MString(""))
    ensures r.Some? ==> var m := metadata.value;
      r.value.camera == (if "Model" in m then m["Model"] else MString(""))
  {
    if !HasMetadata(metadata) then None else Some(MakeRecord(name, index, metadata.value))
  }

  /** The positions from `from` on whose image has metadata, in increasing order. */
  function Sources(metadata: seq<Option<Metadata>>, from: nat): (r: seq<nat>)
    requires from <= |metadata|
    ensures forall k | 0 <= k < |r| :: from <= r[k] < |metadata| && HasMetadata(metadata[r[k]])
    ensures forall k, l | 0 <= k < l < |r| :: r[k] < r[l]
    ensures forall j :: j in r <==> from <= j < |metadata| && HasMetadata(metadata[j])
    ensures |r| <= |metadata| - from
    decreases |metadata| - from
  {
    if from == |metadata| then []
    else
      var rest := Sources(metadata, from + 1);
      if HasMetadata(metadata[from]) then
        assert forall k | 0 <= k < |rest| :: from < rest[k];
        [from] + rest
      else rest
  }

  /** The records of the images that have metadata, in image order. */
  function Records(images: seq<string>, metadata: seq<Option<Metadata>>): (r: seq<PhotoRecord>)
    requires |metadata| == |images|
    ensures |r| == |Sources(metadata, 0)|
  {
    var src := Sources(metadata, 0);
    seq(|src|, k requires 0 <= k < |src| => MakeRecord(images[src[k]], src[k], metadata[src[k]].value))
  }

  /**
   * `process_all`: the records in image order, one per image with metadata,
   * and whether at least one image gave a record. An empty image list fails.
   */
  function ProcessAll(images: seq<string>, metadata: seq<Option<Metadata>>): (r: (seq<PhotoRecord>, bool))
    requires |metadata| == |images|
    ensures r.1 <==> |r.0| > 0
    ensures r.1 <==> exists j | 0 <= j < |images| :: HasMetadata(metadata[j])
    ensures |images| == 0 ==> r.0 == []
    ensures |r.0| <= |images|
  {
    if |images| == 0 then ([], false)
    else
      var photos := Records(images, metadata);
      var src := Sources(metadata, 0);
      assert |photos| > 0 ==> src[0] in src;
      (photos, |photos| > 0)
  }

  /** Each record is what processing its image gives. */
  lemma ProcessedRecords(images: seq<string>, metadata: seq<Option<Metadata>>)
    requires |metadata| == |images|
    ensures var photos := ProcessAll(images, metadata).0; var src := Sources(metadata, 0);
      |photos| == |src| && forall k | 0 <= k < |photos| :: ProcessImage(images[src[k]], src[k], metadata[src[k]]) == Some(photos[k])
  {
  }

  /** Every processed image has its own id, and ids follow image order. */
  lemma ProcessedIdsDistinct(images: seq<string>, metadata: seq<Option<Metadata>>)
    requires |metadata| == |images|
    ensures var photos := ProcessAll(images, metadata).0;
      forall k, l | 0 <= k < l < |photos| :: photos[k].id != photos[l].id
  {
    var photos := ProcessAll(images, metadata).0;
    if |images| > 0 {
        var src := Sources(metadata, 0);
      forall k, l | 0 <= k < l < |photos| ensures photos[k].id != photos[l].id {
        assert photos[k].id == PhotoId(src[k]) && photos[l].id == PhotoId(src[l]);
        if photos[k].id == photos[l].id {
          PhotoIdInjective(src[k], src[l]);
        }
      }
    }
  }

  /** An image without metadata leaves a gap: the next id keeps its own position. */
  lemma GapExample(m: Metadata)
    requires m != map[]
    ensures var photos := ProcessAll(["a.jpg", "b.jpg"], [None, Some(m)]).0;
      |photos| == 1 && photos[0].id == PhotoId(1) && photos[0].filename == "b.jpg"
  {
    var md: seq<Option<Metadata>> := [None, Some(m)];
    assert Sources(md, 2) == [];
    assert Sources(md, 1) == [1];
    assert Sources(md, 0) == [1];
  }

  // ---------------------------------------------------------------------------
  // Summary

  /** The `metadata` block of the output file; the generation time and the source folder are left out. */
  datatype Summary = Summary(totalPhotos: nat, totalTags: nat, generator: string)

  /** Every tag of every record, photo by photo. */
  function RecordTags(photos: seq<PhotoRecord>): (r: seq<string>)
    ensures forall t :: t in r <==> exists p | p in photos :: t in p.tags
    decreases |photos|
  {
    if |photos| == 0 then []
    else
      assert forall p :: p in photos <==> p == photos[0] || p in photos[1..];
      photos[0].tags + RecordTags(photos[1..])
  }

  /** The set of tags used by some record. */
  function TagSet(photos: seq<PhotoRecord>): set<string>
  {
    set p, t | p in photos && t in p.tags :: t
  }

  lemma {:induction false} DistinctCardinality(s: seq<string>)
    requires NoDuplicates(s)
    ensures |set x | x in s| == |s|
    decreases |s|
  {
    if |s| > 0 {
      var rest := s[1..];
      assert NoDuplicates(rest) by {
        forall i, j | 0 <= i < j < |rest| ensures rest[i] != rest[j] {
          assert rest[i] == s[i + 1] && rest[j] == s[j + 1];
        }
      }
      DistinctCardinality(rest);
      assert s[0] !in rest by {
        forall k | 0 <= k < |rest| ensures rest[k] != s[0] {
          assert rest[k] == s[k + 1];
        }
      }
      assert (set x | x in s) == (set x | x in rest) + {s[0]};
    }
  }

  /**
   * `save_json`: refuses to write when there are no records; otherwise the
   * summary counts the records and the distinct tags over all of them.
   */
  function SaveJson(photos: seq<PhotoRecord>): (r: Option<Summary>)
    ensures r.None? <==> |photos| == 0
    ensures r.Some? ==> r.value.totalPhotos == |photos| && r.value.totalTags == |TagSet(photos)|
  {
    if |photos| == 0 then None
    else
      var distinct := SortedUnique(RecordTags(photos));
      StrictNoDuplicates(distinct);
      DistinctCardinality(distinct);
      assert (set x | x in distinct) == TagSet(photos);
      Some(Summary(|photos|, |distinct|, "Lightroom Metadata Extractor"))
  }

  lemma StrictNoDuplicates(s: seq<string>)
    requires StrictlyAscending(s)
    ensures NoDuplicates(s)
  {
    forall i, j | 0 <= i < j < |s| ensures s[i] != s[j] {
      if s[i] == s[j] {
        LessIrreflexive(s[i]);
      }
    }
  }

  /** The distinct-tag total never exceeds the number of tag assignments. */
  lemma TotalTagsBounded(photos: seq<PhotoRecord>)
    requires |photos| > 0
    ensures SaveJson(photos).value.totalTags <= |RecordTags(photos)|
  {
    var all := RecordTags(photos);
    assert TagSet(photos) == set x | x in all;
    SetOfSeqBound(all);
  }

  lemma {:induction false} SetOfSeqBound(s: seq<string>)
    ensures |set x | x in s| <= |s|
    decreases |s|
  {
    if |s| > 0 {
      SetOfSeqBound(s[1..]);
      assert (set x | x in s) == (set x | x in s[1..]) + {s[0]};
    }
  }

  /**
   * `run`: processing then saving. A summary is written exactly when some
   * image had metadata; it counts those images and the distinct tags of their
   * records.
   */
  function Run(images: seq<string>, metadata: seq<Option<Metadata>>): (r: Option<Summary>)
    requires |metadata| == |images|
    ensures r.Some? <==> exists j | 0 <= j < |images| :: HasMetadata(metadata[j])
    ensures r.Some? ==> r.value.totalPhotos == |Sources(metadata, 0)| <= |images|
    ensures r.Some? ==> r.value.totalTags == |TagSet(Records(images, metadata))|
  {
    var processed := ProcessAll(images, metadata);
    if processed.1 then SaveJson(processed.0) else None
  }
}

=== FILE: seqs.dfy ===
/** Sequence vocabulary used by the filters, the tag index and the path history. */
module Seqs {

  /** Number of times `x` occurs in `xs`. */
  function Count<T(==)>(xs: seq<T>, x: T): nat
  {
    if |xs| == 0 then 0
    else (if xs[0] == x then 1 else 0) + Count(xs[1..], x)
  }

  /** `a` is obtained from `b` by deleting elements, keeping the order of the rest. */
  predicate Subsequence<T(==)>(a: seq<T>, b: seq<T>)
    decreases |b|
  {
    |a| <= |b| &&
    (a == [] || (a[0] == b[0] && Subsequence(a[1..], b[1..])) || Subsequence(a, b[1..]))
  }

  predicate NoDuplicates<T(==)>(xs: seq<T>)
  {
    forall i, j | 0 <= i < j < |xs| :: xs[i] != xs[j]
  }

  lemma {:induction false} CountConcat<T>(a: seq<T>, b: seq<T>, x: T)
    ensures Count(a + b, x) == Count(a, x) + Count(b, x)
    decreases |a|
  {
    if |a| == 0 {
      assert a + b == b;
    } else {
      assert (a + b)[1..] == a[1..] + b;
      CountConcat(a[1..], b, x);
    }
  }

  lemma {:induction false} CountPositive<T>(xs: seq<T>, x: T)
    ensures x in xs <==> Count(xs, x) > 0
    decreases |xs|
  {
    if |xs| > 0 {
      CountPositive(xs[1..], x);
      assert x in xs <==> xs[0] == x || x in xs[1..];
    }
  }

  /** Count agrees with the multiset view of the sequence. */
  lemma {:induction false} CountIsMultiplicity<T>(xs: seq<T>, x: T)
    ensures Count(xs, x) == multiset(xs)[x]
    decreases |xs|
  {
    if |xs| > 0 {
      CountIsMultiplicity(xs[1..], x);
      assert xs == [xs[0]] + xs[1..];
      assert multiset(xs) == multiset{xs[0]} + multiset(xs[1..]);
    }
  }

  lemma {:induction false} CountInDistinct<T>(xs: seq<T>, x: T)
    requires NoDuplicates(xs)
    ensures Count(xs, x) == if x in xs then 1 else 0
    decreases |xs|
  {
    if |xs| > 0 {
      CountInDistinct(xs[1..], x);
      if xs[0] == x {
        assert x !in xs[1..] by {
          forall k | 0 <= k < |xs[1..]| ensures xs[1..][k] != x {
            assert xs[0] != xs[k + 1];
          }
        }
      }
    }
  }

  lemma {:induction false} SubsequenceRefl<T>(a: seq<T>)
    ensures Subsequence(a, a)
    decreases |a|
  {
    if |a| > 0 {
      SubsequenceRefl(a[1..]);
    }
  }

  lemma {:induction false} SubsequenceMembers<T>(a: seq<T>, b: seq<T>)
    requires Subsequence(a, b)
    ensures forall x :: x in a ==> x in b
    decreases |b|
  {
    if a != [] {
      if a[0] == b[0] && Subsequence(a[1..], b[1..]) {
        SubsequenceMembers(a[1..], b[1..]);
        assert forall x :: x in a ==> x == a[0] || x in a[1..];
      } else {
        SubsequenceMembers(a, b[1..]);
      }
    }
  }

  lemma {:induction false} SubsequenceTrans<T>(a: seq<T>, b: seq<T>, c: seq<T>)
    requires Subsequence(a, b) && Subsequence(b, c)
    ensures Subsequence(a, c)
    decreases |c|
  {
    if a == [] {
    } else if b[0] == c[0] && Subsequence(b[1..], c[1..]) {
      if a[0] == b[0] && Subsequence(a[1..], b[1..]) {
        SubsequenceTrans(a[1..], b[1..], c[1..]);
      } else {
        SubsequenceTrans(a, b[1..], c[1..]);
      }
    } else {
      SubsequenceTrans(a, b, c[1..]);
    }
  }

  lemma {:induction false} CountTwoPositions<T>(s: seq<T>, i: nat, j: nat)
    requires i < j < |s| && s[i] == s[j]
    ensures Count(s, s[i]) >= 2
  {
    assert s == s[..j] + s[j..];
    CountConcat(s[..j], s[j..], s[i]);
    assert s[..j][i] == s[i];
    assert s[j..][0] == s[i];
    CountPositive(s[..j], s[i]);
    CountPositive(s[j..], s[i]);
  }

  /** Keeps every element other than `x`, in order: JavaScript's `xs.filter(y => y !== x)`. */
  function RemoveAll<T(==,!new)>(xs: seq<T>, x: T): (r: seq<T>)
    ensures x !in r
    ensures Subsequence(r, xs)
    ensures |r| == |xs| - Count(xs, x)
    ensures forall y :: y != x ==> Count(r, y) == Count(xs, y)
    ensures x !in xs ==> r == xs
    decreases |xs|
  {
    if |xs| == 0 then []
    else
      var rest := RemoveAll(xs[1..], x);
      if xs[0] == x then rest else [xs[0]] + rest
  }

  lemma {:induction false} RemoveAllMembers<T(!new)>(xs: seq<T>, x: T, y: T)
    ensures y in RemoveAll(xs, x) <==> y in xs && y != x
  {
    CountPositive(RemoveAll(xs, x), y);
    CountPositive(xs, y);
  }

  lemma {:induction false} RemoveAllKeepsDistinct<T(!new)>(xs: seq<T>, x: T)
    requires NoDuplicates(xs)
    ensures NoDuplicates(RemoveAll(xs, x))
  {
    var r := RemoveAll(xs, x);
    forall i, j | 0 <= i < j < |r| ensures r[i] != r[j] {
      if r[i] == r[j] {
        CountTwoPositions(r, i, j);
        CountInDistinct(xs, r[i]);
        assert false;
      }
    }
  }

  /** A prefix is a subsequence. */
  lemma {:induction false} SubsequencePrefix<T>(xs: seq<T>, k: nat)
    requires k <= |xs|
    ensures Subsequence(xs[..k], xs)
    decreases |xs|
  {
    if k > 0 {
      SubsequencePrefix(xs[1..], k - 1);
      assert xs[..k][1..] == xs[1..][..k - 1];
    }
  }
}

=== FILE: source_config.dfy ===
/**
 * The image-source form (components/ImageSourceConfig.tsx): the blank-path
 * check, the most-recent-first path history and the shortened history labels.
 */
module SourceConfig {
  import opened Seqs
  import opened Text

  /** Maximum number of remembered paths. */
  const HistoryLimit: nat := 5

  /** Longest history label shown unshortened. */
  const LabelLimit: nat := 30

  /**
   * `[p, ...history.filter(x => x !== p)].slice(0, 5)`: the submitted path
   * first, exactly once, followed by the most recent of the other remembered
   * paths in their old order, at most five in all.
   */
  function UpdateHistory(history: seq<string>, p: string): (r: seq<string>)
    ensures |r| >= 1 && r[0] == p && p !in r[1..]
    ensures Subsequence(r[1..], history)
    ensures r[1..] <= RemoveAll(history, p)
    ensures |r| == if 1 + |history| - Count(history, p) < HistoryLimit then 1 + |history| - Count(history, p) else HistoryLimit
    ensures forall x :: x in r ==> x == p || x in history
  {
    var others := RemoveAll(history, p);
    var full := [p] + others;
    var n := if |full| < HistoryLimit then |full| else HistoryLimit;
    var r := full[..n];
    assert r[1..] == others[..n - 1];
    SubsequencePrefix(others, n - 1);
    SubsequenceTrans(others[..n - 1], others, history);
    SubsequenceMembers(others[..n - 1], history);
    assert forall x | x in r[1..] :: x in others;
    r
  }

  /** Updating keeps a duplicate-free history duplicate-free. */
  lemma UpdateKeepsDistinct(history: seq<string>, p: string)
    requires NoDuplicates(history)
    ensures NoDuplicates(UpdateHistory(history, p))
  {
    var r := UpdateHistory(history, p);
    var others := RemoveAll(history, p);
    RemoveAllKeepsDistinct(history, p);
    var n := |r|;
    assert r == ([p] + others)[..n];
    forall i, j | 0 <= i < j < n ensures r[i] != r[j] {
      if i == 0 {
        assert r[j] in r[1..];
      } else {
        assert r[i] == others[i - 1] && r[j] == others[j - 1];
      }
    }
  }

  /**
   * Re-submitting the path at the head of a duplicate-free history of at most
   * five entries leaves the history as it is.
   */
  lemma ResubmitHeadUnchanged(history: seq<string>)
    requires 0 < |history| <= HistoryLimit && NoDuplicates(history)
    ensures UpdateHistory(history, history[0]) == history
  {
    var p := history[0];
    var rest := history[1..];
    assert p !in rest by {
      forall k | 0 <= k < |rest| ensures rest[k] != p {
        assert rest[k] == history[k + 1];
      }
    }
    RemoveAllHead(history);
    assert [p] + rest == history;
  }

  lemma RemoveAllHead(history: seq<string>)
    requires |history| > 0 && history[0] !in history[1..]
    ensures RemoveAll(history, history[0]) == history[1..]
  {
    assert history == [history[0]] + history[1..];
  }

  /** Submitting the same path twice in a row has the effect of submitting it once. */
  lemma UpdateIdempotent(history: seq<string>, p: string)
    ensures UpdateHistory(UpdateHistory(history, p), p) == UpdateHistory(history, p)
  {
    var r := UpdateHistory(history, p);
    RemoveAllHead(r);
    assert [p] + r[1..] == r;
  }

  /** `!imagePath.trim()`: the path is rejected exactly when it is empty or all whitespace. */
  function PathRejected(path: string): (rejected: bool)
    ensures rejected <==> forall i | 0 <= i < |path| :: IsJsSpace(path[i])
  {
    JsTrim(path) == ""
  }

  /** `path.length > 30 ? path.substring(0, 30) + '...' : path`. */
  function HistoryLabel(path: string): (shown: string)
    ensures |path| <= LabelLimit ==> shown == path
    ensures |path| > LabelLimit ==> |shown| == LabelLimit + 3 && shown[..LabelLimit] == path[..LabelLimit] && shown[LabelLimit..] == "..."
  {
    if |path| > LabelLimit then path[..LabelLimit] + "..." else path
  }

  /** Shortening an already shortened label changes nothing. */
  lemma HistoryLabelIdempotent(path: string)
    ensures HistoryLabel(HistoryLabel(path)) == HistoryLabel(path)
  {
    if |path| > LabelLimit {
      var shown := HistoryLabel(path);
      assert shown[..LabelLimit] == path[..LabelLimit];
    }
  }

  // ---------------------------------------------------------------------------
  // Submitting the form

  datatype Status = Idle | Processing | Success | Error

  /**
   * How the submission went after the blank-path check; the requests
   * themselves are not modelled. `RequestFailed`: a request failed before the
   * history was saved. `SavedThenFailed`: the history was saved, then a later
   * step threw (writing local storage, the parent's callback, or reading
   * `metadata.total_photos`). `Processed`: every step succeeded.
   */
  datatype Outcome = RequestFailed | SavedThenFailed | Processed

  datatype FormState = FormState(path: string, status: Status, history: seq<string>)

  /**
   * `handleSubmit`: a blank path sets the error status and stops; otherwise a
   * failed request sets the error status and keeps the history, and a
   * successful one records the path and sets the success status.
   */
  function Submit(s: FormState, outcome: Outcome): (r: FormState)
    ensures r.path == s.path
    ensures PathRejected(s.path) ==> r == s.(status := Error)
    ensures !PathRejected(s.path) && outcome == RequestFailed ==> r == s.(status := Error)
    ensures !PathRejected(s.path) && outcome == SavedThenFailed ==>
      r == s.(status := Error, history := UpdateHistory(s.history, s.path))
    ensures !PathRejected(s.path) && outcome == Processed ==>
      r.status == Success && r.history == UpdateHistory(s.history, s.path)
  {
    if PathRejected(s.path) then s.(status := Error)
    else match outcome
      case RequestFailed => s.(status := Error)
      case SavedThenFailed => s.(status := Error, history := UpdateHistory(s.history, s.path))
      case Processed => s.(status := Success, history := UpdateHistory(s.history, s.path))
  }

  /**
   * A submission either keeps the history or records the path in it; success
   * always records the path, and an error may have recorded it already.
   */
  lemma SubmitHistoryOutcomes(s: FormState, outcome: Outcome)
    ensures var r := Submit(s, outcome);
      && (r.history == s.history || r.history == UpdateHistory(s.history, s.path))
      && (r.status == Success ==> r.history == UpdateHistory(s.history, s.path))
      && (r.status == Success <==> !PathRejected(s.path) && outcome == Processed)
  {
  }

  // ---------------------------------------------------------------------------
  // The configuration request as written

  /**
   * The HTTP methods app/api/image/route.ts exports: only `GET`. The
   * framework answers any other method on that route with 405 Method Not
   * Allowed, so the response is not `ok`.
   */
  const ImageRouteMethods: set<string> := {"GET"}

  /**
   * `handleSubmit` when the route receiving the configuration POST exports
   * `methods`: unless it accepts POST, the first request fails and `later`,
   * the outcome of the remaining steps, never comes into play.
   */
  function SubmitWithRoute(s: FormState, methods: set<string>, later: Outcome): (r: FormState)
    ensures "POST" !in methods ==> r.history == s.history && r.status == Error
    ensures "POST" in methods ==> r == Submit(s, later)
  {
    Submit(s, if "POST" in methods then later else RequestFailed)
  }

  /**
   * As written, the configuration POST goes to a route that exports only
   * `GET`, so no submission ever succeeds or records its path, whatever the
   * processing step would have done.
   */
  lemma ConfigPostNeverSucceeds(s: FormState, later: Outcome)
    ensures SubmitWithRoute(s, ImageRouteMethods, later).status == Error
    ensures SubmitWithRoute(s, ImageRouteMethods, later).history == s.history
  {
    assert "POST" !in ImageRouteMethods;
  }

  /** With a route that accepts the configuration POST, a processed submission succeeds and records the path. */
  lemma SubmitWithPostRouteSaves(s: FormState, methods: set<string>)
    requires "POST" in methods && !PathRejected(s.path)
    ensures SubmitWithRoute(s, methods, Processed).status == Success
    ensures SubmitWithRoute(s, methods, Processed).history == UpdateHistory(s.history, s.path)
  {
  }

  /** The remembered history always has at most five entries, whatever is submitted. */
  lemma SubmitBoundsHistory(s: FormState, outcome: Outcome)
    requires |s.history| <= HistoryLimit
    ensures |Submit(s, outcome).history| <= HistoryLimit
  {
  }
}

=== FILE: string_order.dfy ===
/**
 * The lexicographic order on strings by character code, which both the page's
 * `Array.prototype.sort()` and the script's `sorted()` use, plus the two list
 * operations built on it: first-occurrence de-duplication and sorting by a key.
 */
module StringOrder {
  import opened Seqs

  /** Strict lexicographic order: a proper prefix comes first, otherwise the first differing character decides. */
  predicate Less(a: string, b: string)
    decreases |a|
  {
    if |a| == 0 then |b| > 0
    else if |b| == 0 then false
    else if a[0] != b[0] then a[0] < b[0]
    else Less(a[1..], b[1..])
  }

  lemma {:induction false} LessIrreflexive(a: string)
    ensures !Less(a, a)
    decreases |a|
  {
    if |a| > 0 {
      LessIrreflexive(a[1..]);
    }
  }

  lemma {:induction false} LessTransitive(a: string, b: string, c: string)
    requires Less(a, b) && Less(b, c)
    ensures Less(a, c)
    decreases |a|
  {
    if |a| > 0 && a[0] == b[0] && b[0] == c[0] {
      LessTransitive(a[1..], b[1..], c[1..]);
    }
  }

  lemma {:induction false} LessTotal(a: string, b: string)
    ensures a == b || Less(a, b) || Less(b, a)
    decreases |a|
  {
    if |a| > 0 && |b| > 0 && a[0] == b[0] {
      LessTotal(a[1..], b[1..]);
      if a[1..] == b[1..] {
        assert a == [a[0]] + a[1..] && b == [b[0]] + b[1..];
      }
    }
  }

  lemma LessAsymmetric(a: string, b: string)
    requires Less(a, b)
    ensures !Less(b, a)
  {
    if Less(b, a) {
      LessTransitive(a, b, a);
      LessIrreflexive(a);
    }
  }

  /** The identity key: sorting tags compares the tags themselves. */
  function Id(s: string): string { s }

  /** Strictly ascending by `key`; in particular no two elements share a key. */
  predicate AscendingBy(s: seq<string>, key: string -> string)
  {
    forall i, j | 0 <= i < j < |s| :: Less(key(s[i]), key(s[j]))
  }

  predicate DistinctKeys(s: seq<string>, key: string -> string)
  {
    forall i, j | 0 <= i < j < |s| :: key(s[i]) != key(s[j])
  }

  /** Strictly ascending in the plain string order: sorted and free of duplicates. */
  predicate StrictlyAscending(s: seq<string>)
  {
    forall i, j | 0 <= i < j < |s| :: Less(s[i], s[j])
  }

  function KeySet(s: seq<string>, key: string -> string): set<string>
  {
    set x | x in s :: key(x)
  }

  lemma KeySetCons(x: string, s: seq<string>, key: string -> string)
    ensures KeySet([x] + s, key) == {key(x)} + KeySet(s, key)
  {
    assert forall y :: y in [x] + s <==> y == x || y in s;
  }

  lemma KeySetSnoc(s: seq<string>, x: string, key: string -> string)
    ensures KeySet(s + [x], key) == KeySet(s, key) + {key(x)}
  {
    assert forall y :: y in s + [x] <==> y == x || y in s;
  }

  /**
   * Keeps the first element of every key, in input order: the `seen` set in
   * the image scan, and JavaScript's `new Set(...)` when the key is `Id`.
   */
  function DistinctBy(xs: seq<string>, key: string -> string): (r: seq<string>)
    ensures DistinctKeys(r, key)
    ensures Subsequence(r, xs)
    ensures KeySet(r, key) == KeySet(xs, key)
    decreases |xs|
  {
    if |xs| == 0 then []
    else
      var d := DistinctBy(xs[..|xs| - 1], key);
      var x := xs[|xs| - 1];
      assert xs == xs[..|xs| - 1] + [x];
      KeySetSnoc(xs[..|xs| - 1], x, key);
      SubsequenceRefl(xs);
      SubsequenceSnoc(d, xs[..|xs| - 1], x);
      if key(x) in KeySet(d, key) then
        SubsequenceDropLast(d, xs[..|xs| - 1], x);
        d
      else
        KeySetSnoc(d, x, key);
        d + [x]
  }

  lemma {:induction false} SubsequenceSnoc(a: seq<string>, b: seq<string>, x: string)
    requires Subsequence(a, b)
    ensures Subsequence(a + [x], b + [x])
    decreases |b|
  {
    if a == [] {
      assert a + [x] == [x];
      SubsequenceSingleton(b, x);
    } else if a[0] == b[0] && Subsequence(a[1..], b[1..]) {
      SubsequenceSnoc(a[1..], b[1..], x);
      assert (a + [x])[1..] == a[1..] + [x];
      assert (b + [x])[1..] == b[1..] + [x];
    } else {
      SubsequenceSnoc(a, b[1..], x);
      assert (b + [x])[1..] == b[1..] + [x];
    }
  }

  lemma {:induction false} SubsequenceSingleton(b: seq<string>, x: string)
    ensures Subsequence([x], b + [x])
    decreases |b|
  {
    if |b| == 0 {
      assert b + [x] == [x];
      assert Subsequence([x][1..], (b + [x])[1..]);
    } else {
      SubsequenceSingleton(b[1..], x);
      assert (b + [x])[1..] == b[1..] + [x];
    }
  }

  lemma {:induction false} SubsequenceDropLast(a: seq<string>, b: seq<string>, x: string)
    requires Subsequence(a, b)
    ensures Subsequence(a, b + [x])
    decreases |b|
  {
    if a == [] {
    } else if a[0] == b[0] && Subsequence(a[1..], b[1..]) {
      SubsequenceDropLast(a[1..], b[1..], x);
      assert (b + [x])[1..] == b[1..] + [x];
    } else {
      SubsequenceDropLast(a, b[1..], x);
      assert (b + [x])[1..] == b[1..] + [x];
    }
  }

  /** Putting in front of an ascending list an element whose key is below all of its keys keeps it ascending. */
  lemma AscendingCons(h: string, s: seq<string>, key: string -> string)
    requires AscendingBy(s, key)
    requires forall z | z in s :: Less(key(h), key(z))
    ensures AscendingBy([h] + s, key)
  {
    var r := [h] + s;
    forall i, j | 0 <= i < j < |r| ensures Less(key(r[i]), key(r[j])) {
      assert r[j] == s[j - 1];
      if i > 0 {
        assert r[i] == s[i - 1];
      }
    }
  }

  /** Places `x` among the strictly ascending `s`, by key. */
  function InsertBy(x: string, s: seq<string>, key: string -> string): (r: seq<string>)
    requires AscendingBy(s, key)
    requires forall z :: z in s ==> key(z) != key(x)
    ensures AscendingBy(r, key)
    ensures multiset(r) == multiset(s) + multiset{x}
    decreases |s|
  {
    if |s| == 0 then [x]
    else if Less(key(x), key(s[0])) then
      InsertFront(x, s, key);
      [x] + s
    else
      LessTotal(key(x), key(s[0]));
      var rest := InsertBy(x, s[1..], key);
      InsertAfterHead(x, s, rest, key);
      [s[0]] + rest
  }

  lemma InsertFront(x: string, s: seq<string>, key: string -> string)
    requires AscendingBy(s, key) && |s| > 0 && Less(key(x), key(s[0]))
    ensures AscendingBy([x] + s, key)
  {
    forall j | 0 <= j < |s| ensures Less(key(x), key(s[j])) {
      if j > 0 {
        LessTransitive(key(x), key(s[0]), key(s[j]));
      }
    }
    AscendingCons(x, s, key);
  }

  lemma InsertAfterHead(x: string, s: seq<string>, rest: seq<string>, key: string -> string)
    requires AscendingBy(s, key) && |s| > 0 && Less(key(s[0]), key(x))
    requires AscendingBy(rest, key) && multiset(rest) == multiset(s[1..]) + multiset{x}
    ensures AscendingBy([s[0]] + rest, key)
    ensures multiset([s[0]] + rest) == multiset(s) + multiset{x}
  {
    assert s == [s[0]] + s[1..];
    forall z | z in rest ensures Less(key(s[0]), key(z)) {
      assert z in multiset(rest);
      if z != x {
        var k :| 0 <= k < |s[1..]| && s[1..][k] == z;
        assert s[k + 1] == z;
      }
    }
    AscendingCons(s[0], rest, key);
  }

  /** Insertion sort by key of a list whose keys are pairwise distinct. */
  function SortBy(xs: seq<string>, key: string -> string): (r: seq<string>)
    requires DistinctKeys(xs, key)
    ensures AscendingBy(r, key)
    ensures multiset(r) == multiset(xs)
    decreases |xs|
  {
    if |xs| == 0 then []
    else
      var rest := SortBy(xs[1..], key);
      forall z | z in rest ensures key(z) != key(xs[0]) {
        assert z in multiset(xs[1..]);
        var k :| 0 <= k < |xs[1..]| && xs[1..][k] == z;
        assert xs[0] != xs[k + 1] || key(xs[0]) != key(xs[k + 1]);
      }
      assert xs == [xs[0]] + xs[1..];
      InsertBy(xs[0], rest, key)
  }

  lemma AscendingIdIsStrict(s: seq<string>)
    requires AscendingBy(s, Id)
    ensures StrictlyAscending(s)
  {
    forall i, j | 0 <= i < j < |s| ensures Less(s[i], s[j]) {
      assert Less(Id(s[i]), Id(s[j]));
    }
  }

  /**
   * Sorted-and-distinct lists are determined by their elements: two strictly
   * ascending lists with the same members are equal.
   */
  lemma {:induction false} AscendingUnique(a: seq<string>, b: seq<string>)
    requires StrictlyAscending(a) && StrictlyAscending(b)
    requires forall x :: x in a <==> x in b
    ensures a == b
    decreases |a|
  {
    assert |a| > 0 ==> a[0] in b;
    assert |b| > 0 ==> b[0] in a;
    if |a| > 0 {
      var i :| 0 <= i < |b| && b[i] == a[0];
      var k :| 0 <= k < |a| && a[k] == b[0];
      assert i > 0 ==> Less(b[0], a[0]);
      assert k > 0 ==> Less(a[0], b[0]);
      if Less(a[0], b[0]) {
        LessAsymmetric(a[0], b[0]);
      }
      assert a[0] == b[0];
      forall x ensures x in a[1..] <==> x in b[1..] {
        if x in a[1..] {
          var p :| 0 <= p < |a[1..]| && a[1..][p] == x;
          assert Less(a[0], a[p + 1]);
          LessIrreflexive(x);
          assert x in b;
          assert x != b[0];
          assert b == [b[0]] + b[1..];
        }
        if x in b[1..] {
          var p :| 0 <= p < |b[1..]| && b[1..][p] == x;
          assert Less(b[0], b[p + 1]);
          LessIrreflexive(x);
          assert x in a;
          assert x != a[0];
          assert a == [a[0]] + a[1..];
        }
      }
      AscendingUnique(a[1..], b[1..]);
      assert a == [a[0]] + a[1..] && b == [b[0]] + b[1..];
    }
  }

  /** `sorted(set(xs))` / `Array.from(new Set(xs)).sort()`: the distinct strings of `xs` in ascending order. */
  function SortedUnique(xs: seq<string>): (r: seq<string>)
    ensures StrictlyAscending(r)
    ensures forall x :: x in r <==> x in xs
  {
    var d := DistinctBy(xs, Id);
    DistinctById(xs);
    var r := SortBy(d, Id);
    AscendingIdIsStrict(r);
    assert forall x :: x in r <==> x in multiset(d);
    r
  }

  /** With the identity key, first-occurrence de-duplication keeps exactly the members, once each. */
  lemma DistinctById(xs: seq<string>)
    ensures NoDuplicates(DistinctBy(xs, Id))
    ensures forall x :: x in DistinctBy(xs, Id) <==> x in xs
  {
    var d := DistinctBy(xs, Id);
    forall i, j | 0 <= i < j < |d| ensures d[i] != d[j] {
      assert Id(d[i]) != Id(d[j]);
    }
    forall x ensures x in d <==> x in xs {
      assert Id(x) == x;
      assert x in KeySet(d, Id) <==> x in d;
      assert x in KeySet(xs, Id) <==> x in xs;
    }
  }

  /** Two lists with the same members have the same sorted distinct form: order and repetition are irrelevant. */
  lemma SortedUniqueDependsOnMembers(xs: seq<string>, ys: seq<string>)
    requires forall x :: x in xs <==> x in ys
    ensures SortedUnique(xs) == SortedUnique(ys)
  {
    AscendingUnique(SortedUnique(xs), SortedUnique(ys));
  }
}

=== FILE: tag_index.dfy ===
/**
 * The tag index of lib/data.ts: the sorted distinct tags of a collection and
 * the number of times each tag is assigned.
 */
module TagIndex {
  import opened Wrappers
  import opened Seqs
  import opened StringOrder
  import opened Photos

  /** `counts[tag] || 0` on a map of positive counts. */
  function GetCount(counts: map<string, nat>, t: string): nat
  {
    if t in counts then counts[t] else 0
  }

  /** `counts[tag] = (counts[tag] || 0) + 1` for each tag of one photo, in order. */
  function CountTags(counts: map<string, nat>, tags: seq<string>): (r: map<string, nat>)
    ensures forall t :: t in r <==> t in counts || t in tags
    ensures forall t :: t in r ==> r[t] == GetCount(counts, t) + Count(tags, t)
    decreases |tags|
  {
    if |tags| == 0 then counts
    else
      var t := tags[0];
      assert forall u :: u in tags <==> u == t || u in tags[1..];
      CountTags(counts[t := GetCount(counts, t) + 1], tags[1..])
  }

  /** `photos.forEach(photo => photo.tags?.forEach(...))` from the given counts. */
  function CountPhotos(counts: map<string, nat>, photos: seq<Photo>): (r: map<string, nat>)
    ensures forall t :: t in r <==> t in counts || t in AllTags(photos)
    ensures forall t :: t in r ==> r[t] == GetCount(counts, t) + Count(AllTags(photos), t)
    decreases |photos|
  {
    if |photos| == 0 then counts
    else
      var next := CountTags(counts, TagsOf(photos[0]));
      var r := CountPhotos(next, photos[1..]);
      assert AllTags(photos) == TagsOf(photos[0]) + AllTags(photos[1..]);
      forall t ensures Count(AllTags(photos), t) == Count(TagsOf(photos[0]), t) + Count(AllTags(photos[1..]), t) {
        CountConcat(TagsOf(photos[0]), AllTags(photos[1..]), t);
      }
      forall t ensures GetCount(next, t) == GetCount(counts, t) + Count(TagsOf(photos[0]), t) {
        CountPositive(TagsOf(photos[0]), t);
      }
      r
  }

  /**
   * `getTagCounts`: every tag assigned anywhere in the collection is a key,
   * and its value is the number of its assignments, so a tag listed twice
   * by one photo counts twice.
   */
  function TagCounts(photos: seq<Photo>): (r: map<string, nat>)
    ensures forall t :: t in r <==> t in AllTags(photos)
    ensures forall t :: t in r ==> r[t] == Count(AllTags(photos), t) && r[t] >= 1
  {
    var r := CountPhotos(map[], photos);
    forall t | t in r ensures r[t] >= 1 {
      CountPositive(AllTags(photos), t);
    }
    r
  }

  /** `getUniqueTags`: the distinct assigned tags, strictly ascending. */
  function UniqueTags(photos: seq<Photo>): (r: seq<string>)
    ensures StrictlyAscending(r)
    ensures forall t :: t in r <==> t in AllTags(photos)
  {
    SortedUnique(AllTags(photos))
  }

  /** The counted tags are exactly the listed tags. */
  lemma CountKeysAreUniqueTags(photos: seq<Photo>)
    ensures forall t :: t in TagCounts(photos) <==> t in UniqueTags(photos)
  {
  }

  lemma EmptyCollection()
    ensures UniqueTags([]) == []
    ensures TagCounts([]) == map[]
  {
    assert forall t :: t !in UniqueTags([]);
  }

  /** A photo without a tag list changes neither result, wherever it sits. */
  lemma UntaggedPhotoIgnored(a: seq<Photo>, p: Photo, b: seq<Photo>)
    requires p.tags.None?
    ensures TagCounts(a + [p] + b) == TagCounts(a + b)
    ensures UniqueTags(a + [p] + b) == UniqueTags(a + b)
  {
    AllTagsConcat(a + [p], b);
    AllTagsConcat(a, [p]);
    AllTagsConcat(a, b);
    assert AllTags([p]) == [];
    assert AllTags(a + [p] + b) == AllTags(a + b);
  }

  /** Both results depend only on which photos are present, not on their order. */
  lemma PermutationInvariant(c: seq<Photo>, d: seq<Photo>)
    requires multiset(c) == multiset(d)
    ensures UniqueTags(c) == UniqueTags(d)
    ensures TagCounts(c) == TagCounts(d)
  {
    AllTagsPermutation(c, d);
    SameMultisetSameMembers(AllTags(c), AllTags(d));
    SortedUniqueDependsOnMembers(AllTags(c), AllTags(d));
    SameMultisetSameCounts(c, d);
  }

  lemma SameMultisetSameMembers(xs: seq<string>, ys: seq<string>)
    requires multiset(xs) == multiset(ys)
    ensures forall t :: t in xs <==> t in ys
  {
    assert forall t :: t in xs <==> t in multiset(xs);
    assert forall t :: t in ys <==> t in multiset(ys);
  }

  lemma SameMultisetSameCounts(c: seq<Photo>, d: seq<Photo>)
    requires multiset(AllTags(c)) == multiset(AllTags(d))
    ensures TagCounts(c) == TagCounts(d)
  {
    SameMultisetSameMembers(AllTags(c), AllTags(d));
    forall t ensures Count(AllTags(c), t) == Count(AllTags(d), t) {
      CountIsMultiplicity(AllTags(c), t);
      CountIsMultiplicity(AllTags(d), t);
    }
    assert TagCounts(c).Keys == TagCounts(d).Keys;
  }

  /** Pairs each key of `ks` with its count, in the order of `ks`. */
  function EntriesFor(ks: seq<string>, counts: map<string, nat>): (r: seq<(string, nat)>)
    requires forall k | k in ks :: k in counts
    ensures |r| == |ks|
    ensures forall i | 0 <= i < |r| :: r[i] == (ks[i], counts[ks[i]])
  {
    if |ks| == 0 then [] else [(ks[0], counts[ks[0]])] + EntriesFor(ks[1..], counts)
  }

  /**
   * `Object.entries(tagCounts)`: the counted tags in first-assignment order
   * (string keys of a plain object enumerate in insertion order).
   */
  function TagEntries(photos: seq<Photo>): (r: seq<(string, nat)>)
    ensures forall i | 0 <= i < |r| :: r[i].0 in TagCounts(photos) && r[i].1 == TagCounts(photos)[r[i].0]
    ensures forall t :: t in TagCounts(photos) <==> exists i | 0 <= i < |r| :: r[i].0 == t
    ensures forall i, j | 0 <= i < j < |r| :: r[i].0 != r[j].0
  {
    var ks := DistinctBy(AllTags(photos), Id);
    DistinctById(AllTags(photos));
    EntriesForListing(ks, TagCounts(photos));
    EntriesFor(ks, TagCounts(photos))
  }

  /** Over a duplicate-free list of exactly the keys of `counts`, the entries list every key once with its count. */
  lemma EntriesForListing(ks: seq<string>, counts: map<string, nat>)
    requires NoDuplicates(ks)
    requires forall k :: k in ks <==> k in counts
    ensures var r := EntriesFor(ks, counts);
      && (forall i | 0 <= i < |r| :: r[i].0 in counts && r[i].1 == counts[r[i].0])
      && (forall t :: t in counts <==> exists i | 0 <= i < |r| :: r[i].0 == t)
      && (forall i, j | 0 <= i < j < |r| :: r[i].0 != r[j].0)
  {
    var r := EntriesFor(ks, counts);
    forall t | t in counts ensures exists i | 0 <= i < |r| :: r[i].0 == t {
      var i :| 0 <= i < |ks| && ks[i] == t;
      assert r[i].0 == t;
    }
  }

  /** `Object.values(counts).reduce((a, b) => a + b, 0)` over a list of entries. */
  function SumCounts(entries: seq<(string, nat)>): nat
  {
    if |entries| == 0 then 0 else entries[0].1 + SumCounts(entries[1..])
  }

  /** Sum over the keys `ks` of the occurrences of each key in `xs`. */
  function SumOccurrences(ks: seq<string>, xs: seq<string>): nat
  {
    if |ks| == 0 then 0 else Count(xs, ks[0]) + SumOccurrences(ks[1..], xs)
  }

  lemma {:induction false} SumOccurrencesCons(ks: seq<string>, x: string, xs: seq<string>)
    ensures SumOccurrences(ks, [x] + xs) == Count(ks, x) + SumOccurrences(ks, xs)
    decreases |ks|
  {
    if |ks| > 0 {
      SumOccurrencesCons(ks[1..], x, xs);
      assert ([x] + xs)[1..] == xs;
    }
  }

  /** Over a duplicate-free key list covering `xs`, the occurrences add up to `|xs|`. */
  lemma {:induction false} SumOccurrencesIsLength(ks: seq<string>, xs: seq<string>)
    requires NoDuplicates(ks)
    requires forall x | x in xs :: x in ks
    ensures SumOccurrences(ks, xs) == |xs|
    decreases |xs|
  {
    if |xs| == 0 {
      SumOccurrencesZero(ks, xs);
    } else {
      assert xs == [xs[0]] + xs[1..];
      SumOccurrencesCons(ks, xs[0], xs[1..]);
      CountInDistinct(ks, xs[0]);
      SumOccurrencesIsLength(ks, xs[1..]);
    }
  }

  lemma {:induction false} SumOccurrencesZero(ks: seq<string>, xs: seq<string>)
    requires |xs| == 0
    ensures SumOccurrences(ks, xs) == 0
    decreases |ks|
  {
    if |ks| > 0 {
      SumOccurrencesZero(ks[1..], xs);
    }
  }

  lemma {:induction false} SumEntriesFor(ks: seq<string>, photos: seq<Photo>)
    requires forall k | k in ks :: k in TagCounts(photos)
    ensures SumCounts(EntriesFor(ks, TagCounts(photos))) == SumOccurrences(ks, AllTags(photos))
    decreases |ks|
  {
    if |ks| > 0 {
      SumEntriesFor(ks[1..], photos);
      assert EntriesFor(ks, TagCounts(photos))[1..] == EntriesFor(ks[1..], TagCounts(photos));
    }
  }

  /**
   * The "asignaciones totales" figure: summing every count gives the total
   * length of all tag lists.
   */
  lemma TotalAssignmentsIsTagTotal(photos: seq<Photo>)
    ensures SumCounts(TagEntries(photos)) == |AllTags(photos)|
  {
    var ks := DistinctBy(AllTags(photos), Id);
    DistinctById(AllTags(photos));
    SumEntriesFor(ks, photos);
    SumOccurrencesIsLength(ks, AllTags(photos));
  }

  // ---------------------------------------------------------------------------
  // getTagCounts as written: the counts live in a plain object literal `{}`,
  // whose keys share a namespace with the members it inherits from
  // Object.prototype.

  /** A property value in the counting object: a number, or the string `+ 1` produced. */
  datatype JsCount = Num(n: nat) | Text(s: string)

  /** Inherited Object.prototype methods: reading one of these on `{}` yields a function. */
  const PrototypeMethods: set<string> := {
    "constructor", "hasOwnProperty", "isPrototypeOf", "propertyIsEnumerable",
    "toLocaleString", "toString", "valueOf",
    "__defineGetter__", "__defineSetter__", "__lookupGetter__", "__lookupSetter__"}

  /** How a built-in function converts to a string (`constructor` is the function `Object`). */
  function NativeSource(name: string): string
  {
    "function " + (if name == "constructor" then "Object" else name) + "() { [native code] }"
  }

  /** One step `counts[tag] = (counts[tag] || 0) + 1` on an object literal with own properties `own`. */
  function BumpAsWritten(own: map<string, JsCount>, tag: string): map<string, JsCount>
  {
    if tag in own then
      match own[tag]
      case Num(n) => own[tag := Num(n + 1)]
      case Text(s) => own[tag := Text(s + "1")]
    // reading `__proto__` gives Object.prototype, and assigning a string to it is ignored
    else if tag == "__proto__" then own
    // a truthy inherited function: `fn + 1` concatenates its source text with "1"
    else if tag in PrototypeMethods then own[tag := Text(NativeSource(tag) + "1")]
    else own[tag := Num(1)]
  }

  function CountTagsAsWritten(own: map<string, JsCount>, tags: seq<string>): map<string, JsCount>
    decreases |tags|
  {
    if |tags| == 0 then own else CountTagsAsWritten(BumpAsWritten(own, tags[0]), tags[1..])
  }

  function TagCountsAsWritten(photos: seq<Photo>): map<string, JsCount>
  {
    CountTagsAsWritten(map[], AllTags(photos))
  }

  function TaggedPhoto(tags: seq<string>): Photo
  {
    Photo("photo-001", "", "a.jpg", Some(tags), None, None, None, None)
  }

  /**
   * On the object literal, a photo tagged "constructor" gets a count that is
   * not a number, and a photo tagged "__proto__" gets no count at all although
   * the tag is listed by getUniqueTags; the map-based TagCounts counts both.
   */
  lemma PrototypeTagsBreakCounts()
    ensures TagCountsAsWritten([TaggedPhoto(["constructor"])])["constructor"].Text?
    ensures "__proto__" !in TagCountsAsWritten([TaggedPhoto(["__proto__"])])
    ensures "__proto__" in UniqueTags([TaggedPhoto(["__proto__"])])
    ensures TagCounts([TaggedPhoto(["constructor"])])["constructor"] == 1
    ensures TagCounts([TaggedPhoto(["__proto__"])])["__proto__"] == 1
  {
    var c := [TaggedPhoto(["constructor"])];
    var q := [TaggedPhoto(["__proto__"])];
    assert AllTags(c) == ["constructor"] by { assert AllTags(c[1..]) == []; }
    assert AllTags(q) == ["__proto__"] by { assert AllTags(q[1..]) == []; }
    assert "__proto__" in AllTags(q);
    assert "constructor" in AllTags(c);
    assert Count(["constructor"], "constructor") == 1 by {
      assert ["constructor"][1..] == [];
    }
    assert Count(["__proto__"], "__proto__") == 1 by {
      assert ["__proto__"][1..] == [];
    }
  }
  /** A count map read as the object's own numeric properties. */
  function AsNumbers(counts: map<string, nat>): map<string, JsCount>
  {
    map t | t in counts :: Num(counts[t])
  }

  /** A tag that names nothing a plain object literal inherits. */
  predicate PlainTag(t: string)
  {
    t != "__proto__" && t !in PrototypeMethods
  }

  lemma {:induction false} CountTagsAsWrittenAgrees(counts: map<string, nat>, tags: seq<string>)
    requires forall t | t in tags :: PlainTag(t)
    ensures CountTagsAsWritten(AsNumbers(counts), tags) == AsNumbers(CountTags(counts, tags))
    decreases |tags|
  {
    if |tags| > 0 {
      var t := tags[0];
      var next := counts[t := GetCount(counts, t) + 1];
      assert PlainTag(t) by { assert t in tags; }
      assert BumpAsWritten(AsNumbers(counts), t) == AsNumbers(next) by {
        if t in counts {
          assert AsNumbers(counts)[t] == Num(counts[t]);
        }
      }
      assert forall u | u in tags[1..] :: u in tags;
      CountTagsAsWrittenAgrees(next, tags[1..]);
    }
  }

  lemma SameCounts(a: map<string, nat>, b: map<string, nat>, tags: seq<string>)
    requires forall t :: t in a <==> t in tags
    requires forall t :: t in b <==> t in tags
    requires forall t | t in a :: a[t] == Count(tags, t)
    requires forall t | t in b :: b[t] == Count(tags, t)
    ensures a == b
  {
    assert a.Keys == b.Keys;
  }

  /**
   * The prototype clash is the only way the object literal goes wrong: when
   * no assigned tag names an inherited member, the counts as written are
   * exactly the corrected counts, as numbers.
   */
  lemma AsWrittenAgreesOnPlainTags(photos: seq<Photo>)
    requires forall t | t in AllTags(photos) :: PlainTag(t)
    ensures TagCountsAsWritten(photos) == AsNumbers(TagCounts(photos))
  {
    CountTagsAsWrittenAgrees(map[], AllTags(photos));
    assert AsNumbers(map[]) == map[];
    var c := CountTags(map[], AllTags(photos));
    SameCounts(c, TagCounts(photos), AllTags(photos));
  }
}

=== FILE: text.dfy ===
/**
 * String primitives the page, the image route and the metadata script share:
 * lower-casing, substring search, whitespace trimming and separator splitting.
 */
module Text {
  import opened Wrappers

  /** Lower-cases one character; only the ASCII letters A-Z change. */
  function LowerChar(c: char): char
  {
    if 'A' <= c <= 'Z' then (c as int - 'A' as int + 'a' as int) as char else c
  }

  /** `toLowerCase()` / `str.lower()`, restricted to ASCII letters. */
  function Lower(s: string): (r: string)
    ensures |r| == |s|
    ensures forall i | 0 <= i < |s| :: r[i] == LowerChar(s[i])
  {
    seq(|s|, i requires 0 <= i < |s| => LowerChar(s[i]))
  }

  lemma LowerIdempotent(s: string)
    ensures Lower(Lower(s)) == Lower(s)
  {
  }

  /** `sub` occurs in `s` starting at `i`. */
  predicate OccursAt(s: string, sub: string, i: int)
  {
    0 <= i && i + |sub| <= |s| && s[i..i + |sub|] == sub
  }

  /** JavaScript `s.includes(sub)`, Python `sub in s`. */
  predicate Contains(s: string, sub: string)
  {
    exists i | 0 <= i <= |s| - |sub| :: OccursAt(s, sub, i)
  }

  lemma ContainsEmpty(s: string)
    ensures Contains(s, "")
  {
    assert OccursAt(s, "", 0);
  }

  /** Index of the leftmost occurrence of `sub` in `s`, if any. */
  function IndexOf(s: string, sub: string): (r: Option<nat>)
    ensures r.Some? ==> OccursAt(s, sub, r.value) && forall j | 0 <= j < r.value :: !OccursAt(s, sub, j)
    ensures r.None? <==> !Contains(s, sub)
  {
    IndexFrom(s, sub, 0)
  }

  function IndexFrom(s: string, sub: string, from: nat): (r: Option<nat>)
    requires forall j | 0 <= j < from :: !OccursAt(s, sub, j)
    ensures r.Some? ==> OccursAt(s, sub, r.value) && forall j | 0 <= j < r.value :: !OccursAt(s, sub, j)
    ensures r.None? <==> !Contains(s, sub)
    decreases |s| - from
  {
    if from + |sub| > |s| then None
    else if s[from..from + |sub|] == sub then
      assert OccursAt(s, sub, from);
      Some(from)
    else IndexFrom(s, sub, from + 1)
  }

  /** Python `str.isspace()` characters, which `str.strip()` removes. */
  predicate IsPySpace(c: char)
  {
    ('\t' <= c <= '\r') || ('\U{1C}' <= c <= '\U{1F}') || c == ' ' || c == '\U{85}' || c == '\U{A0}'
    || c == '\U{1680}' || ('\U{2000}' <= c <= '\U{200A}') || c == '\U{2028}' || c == '\U{2029}'
    || c == '\U{202F}' || c == '\U{205F}' || c == '\U{3000}'
  }

  /** ECMAScript WhiteSpace and LineTerminator characters, which `String.prototype.trim()` removes. */
  predicate IsJsSpace(c: char)
  {
    ('\t' <= c <= '\r') || c == ' ' || c == '\U{A0}' || c == '\U{FEFF}'
    || c == '\U{1680}' || ('\U{2000}' <= c <= '\U{200A}') || c == '\U{2028}' || c == '\U{2029}'
    || c == '\U{202F}' || c == '\U{205F}' || c == '\U{3000}'
  }

  /** Index of the first character from `n` on that does not satisfy `ws`, or `|s|`. */
  function SkipForward(s: string, ws: char -> bool, n: nat): (lo: nat)
    requires n <= |s| && forall i | 0 <= i < n :: ws(s[i])
    ensures n <= lo <= |s|
    ensures forall i | 0 <= i < lo :: ws(s[i])
    ensures lo < |s| ==> !ws(s[lo])
    decreases |s| - n
  {
    if n < |s| && ws(s[n]) then SkipForward(s, ws, n + 1) else n
  }

  /** Index just after the last character before `hi` and from `lo` on that does not satisfy `ws`, or `lo`. */
  function SkipBackward(s: string, ws: char -> bool, lo: nat, hi: nat): (end: nat)
    requires lo <= hi <= |s| && forall i | hi <= i < |s| :: ws(s[i])
    ensures lo <= end <= hi
    ensures forall i | end <= i < |s| :: ws(s[i])
    ensures end > lo ==> !ws(s[end - 1])
    decreases hi
  {
    if hi > lo && ws(s[hi - 1]) then SkipBackward(s, ws, lo, hi - 1) else hi
  }

  /** `r` sits at offset `k` of `s` and only `ws` characters surround it. */
  predicate TrimmedSlice(s: string, r: string, ws: char -> bool, k: int)
  {
    0 <= k <= |s| - |r| && s[k..k + |r|] == r
    && (forall i | 0 <= i < k :: ws(s[i])) && (forall i | k + |r| <= i < |s| :: ws(s[i]))
  }

  /**
   * Removes leading and trailing `ws` characters: the result is a contiguous
   * slice of `s`, everything cut away is whitespace, and the result neither
   * starts nor ends with whitespace.
   */
  function Strip(s: string, ws: char -> bool): (r: string)
    ensures exists k :: TrimmedSlice(s, r, ws, k)
    ensures |r| > 0 ==> !ws(r[0]) && !ws(r[|r| - 1])
    ensures r == [] <==> forall i | 0 <= i < |s| :: ws(s[i])
  {
    var lo := SkipForward(s, ws, 0);
    var hi := SkipBackward(s, ws, lo, |s|);
    assert TrimmedSlice(s, s[lo..hi], ws, lo);
    s[lo..hi]
  }

  lemma StripOfStripped(s: string, ws: char -> bool)
    requires |s| > 0 ==> !ws(s[0]) && !ws(s[|s| - 1])
    ensures Strip(s, ws) == s
  {
    assert s[0..|s|] == s;
  }

  /** Python `s.strip()`. */
  function PyStrip(s: string): string { Strip(s, IsPySpace) }

  /** JavaScript `s.trim()`. */
  function JsTrim(s: string): string { Strip(s, IsJsSpace) }

  /** Joins `parts` with `sep` between consecutive parts: Python `sep.join(parts)`. */
  function Join(parts: seq<string>, sep: string): string
  {
    if |parts| == 0 then ""
    else if |parts| == 1 then parts[0]
    else parts[0] + sep + Join(parts[1..], sep)
  }

  /**
   * Python `s.split(sep)` for a non-empty separator: cuts at every occurrence
   * found scanning left to right. Joining the parts back gives `s`, no part
   * contains the separator, and the first part ends at the separator's
   * leftmost occurrence (SplitRest carries this on through the rest).
   */
  function Split(s: string, sep: string): (r: seq<string>)
    requires |sep| > 0
    ensures |r| >= 1
    ensures Join(r, sep) == s
    ensures forall k | 0 <= k < |r| :: !Contains(r[k], sep)
    ensures |r| == 1 <==> !Contains(s, sep)
    ensures |r| > 1 ==> IndexOf(s, sep) == Some(|r[0]|)
    decreases |s|
  {
    match IndexOf(s, sep)
    case None => [s]
    case Some(i) =>
      var rest := Split(s[i + |sep|..], sep);
      SplitStep(s, sep, i, rest);
      [s[..i]] + rest
  }

  /**
   * After the first piece and the separator's leftmost occurrence, the
   * remaining pieces split the rest of the string the same way.
   */
  lemma SplitRest(s: string, sep: string)
    requires |sep| > 0 && Contains(s, sep)
    ensures |Split(s, sep)[0]| + |sep| <= |s|
    ensures Split(s, sep)[1..] == Split(s[|Split(s, sep)[0]| + |sep|..], sep)
  {
    var i := IndexOf(s, sep).value;
    assert ([s[..i]] + Split(s[i + |sep|..], sep))[1..] == Split(s[i + |sep|..], sep);
  }

  lemma SplitStep(s: string, sep: string, i: nat, rest: seq<string>)
    requires |sep| > 0 && OccursAt(s, sep, i)
    requires forall j | 0 <= j < i :: !OccursAt(s, sep, j)
    requires |rest| >= 1 && Join(rest, sep) == s[i + |sep|..]
    ensures Join([s[..i]] + rest, sep) == s
    ensures !Contains(s[..i], sep)
    ensures Contains(s, sep)
  {
    JoinCons(s[..i], rest, sep);
    assert s == s[..i] + sep + s[i + |sep|..];
    PrefixBeforeFirst(s, sep, i);
  }

  lemma JoinCons(head: string, rest: seq<string>, sep: string)
    requires |rest| >= 1
    ensures Join([head] + rest, sep) == head + sep + Join(rest, sep)
  {
    assert ([head] + rest)[1..] == rest;
  }

  /** Nothing before the leftmost occurrence contains the separator. */
  lemma PrefixBeforeFirst(s: string, sep: string, i: nat)
    requires |sep| > 0 && i <= |s|
    requires forall j | 0 <= j < i :: !OccursAt(s, sep, j)
    ensures !Contains(s[..i], sep)
  {
    var head := s[..i];
    forall j | 0 <= j <= |head| - |sep| ensures OccursAt(head, sep, j) ==> OccursAt(s, sep, j) {
      assert head[j..j + |sep|] == s[j..j + |sep|];
    }
  }
}

=== FILE: viewer.dfy ===
/**
 * The photo viewer: the gallery's open/close/next/prev over an index into the
 * filtered list (components/Gallery.tsx) together with the modal's zoom,
 * rotation, fullscreen flag and keyboard table (components/ImageModal.tsx).
 */
module Viewer {
  import opened Wrappers
  import opened Photos
  import opened Layout

  const MinZoom: real := 0.25
  const MaxZoom: real := 3.0
  const ZoomStep: real := 0.25

  /**
   * `index` and `open` live in the gallery; `zoom`, `rotation` (degrees) and
   * `fullscreen` live in the modal and survive closing it.
   */
  datatype ViewerState = ViewerState(index: Option<nat>, open: bool, zoom: real, rotation: nat, fullscreen: bool)

  function Initial(): ViewerState
  {
    ViewerState(None, false, 1.0, 0, false)
  }

  /** Zoom within its bounds and rotation a multiple of a quarter turn. */
  predicate ValidTransform(s: ViewerState)
  {
    MinZoom <= s.zoom <= MaxZoom && s.rotation in {0, 90, 180, 270}
  }

  /** The modal renders (and listens to keys) only when open with a photo at the index. */
  predicate Visible(s: ViewerState, count: nat)
  {
    s.open && s.index.Some? && s.index.value < count
  }

  // ---------------------------------------------------------------------------
  // Navigation (Gallery)

  predicate HasNext(s: ViewerState, count: nat)
  {
    s.index.Some? && s.index.value < count - 1
  }

  predicate HasPrev(s: ViewerState)
  {
    s.index.Some? && s.index.value > 0
  }

  /** `handleOpenModal`; the modal's open effect resets zoom and rotation only when it was closed before. */
  function Open(s: ViewerState, i: nat): (r: ViewerState)
    ensures r.open && r.index == Some(i) && r.fullscreen == s.fullscreen
    ensures !s.open ==> r.zoom == 1.0 && r.rotation == 0
    ensures s.open ==> r.zoom == s.zoom && r.rotation == s.rotation
  {
    if s.open then s.(index := Some(i)) else s.(index := Some(i), open := true, zoom := 1.0, rotation := 0)
  }

  /** `handleCloseModal`, with the delayed clearing of the index applied at once; fullscreen is left as it is. */
  function Close(s: ViewerState): (r: ViewerState)
    ensures !r.open && r.index.None?
    ensures r.zoom == s.zoom && r.rotation == s.rotation && r.fullscreen == s.fullscreen
  {
    s.(open := false, index := None)
  }

  /** `handleNextPhoto`: a step forward when there is a next photo, nothing otherwise. */
  function Next(s: ViewerState, count: nat): (r: ViewerState)
    ensures HasNext(s, count) ==> r.index == Some(s.index.value + 1)
    ensures !HasNext(s, count) ==> r == s
    ensures r.open == s.open && r.zoom == s.zoom && r.rotation == s.rotation && r.fullscreen == s.fullscreen
  {
    if HasNext(s, count) then s.(index := Some(s.index.value + 1)) else s
  }

  /** `handlePrevPhoto`: a step back when there is a previous photo, nothing otherwise. */
  function Prev(s: ViewerState): (r: ViewerState)
    ensures HasPrev(s) ==> r.index == Some(s.index.value - 1)
    ensures !HasPrev(s) ==> r == s
    ensures r.open == s.open && r.zoom == s.zoom && r.rotation == s.rotation && r.fullscreen == s.fullscreen
  {
    if HasPrev(s) then s.(index := Some(s.index.value - 1)) else s
  }

  /** The index stays within the list. */
  predicate IndexInRange(s: ViewerState, count: nat)
  {
    s.index.Some? ==> s.index.value < count
  }

  lemma NavigationStaysInRange(s: ViewerState, count: nat)
    requires IndexInRange(s, count)
    ensures IndexInRange(Next(s, count), count) && IndexInRange(Prev(s), count)
    ensures Visible(s, count) ==> Visible(Next(s, count), count) && Visible(Prev(s), count)
  {
  }

  lemma NextThenPrev(s: ViewerState, count: nat)
    requires HasNext(s, count)
    ensures HasPrev(Next(s, count)) && Prev(Next(s, count)) == s
  {
  }

  lemma PrevThenNext(s: ViewerState, count: nat)
    requires HasPrev(s) && IndexInRange(s, count)
    ensures HasNext(Prev(s), count) && Next(Prev(s), count) == s
  {
  }

  /** Opening a closed viewer and closing it again changes only the reset transform. */
  lemma OpenThenClose(s: ViewerState, i: nat)
    requires !s.open && s.index.None?
    ensures Close(Open(s, i)) == s.(zoom := 1.0, rotation := 0)
  {
  }

  // ---------------------------------------------------------------------------
  // Transform (ImageModal)

  function Min(a: real, b: real): real { if a <= b then a else b }
  function Max(a: real, b: real): real { if a >= b then a else b }

  /** `Math.min(3, z + 0.25)`. */
  function ZoomIn(z: real): (r: real)
    ensures r <= MaxZoom && (r == MaxZoom || r == z + ZoomStep)
    ensures r <= z + ZoomStep
    ensures z <= MaxZoom ==> z <= r
  {
    Min(MaxZoom, z + ZoomStep)
  }

  /** `Math.max(0.25, z - 0.25)`. */
  function ZoomOut(z: real): (r: real)
    ensures r >= MinZoom && (r == MinZoom || r == z - ZoomStep)
    ensures r >= z - ZoomStep
    ensures z >= MinZoom ==> r <= z
  {
    Max(MinZoom, z - ZoomStep)
  }

  /** Both zoom steps keep the zoom within bounds, and neither moves at its own bound. */
  lemma ZoomBounded(z: real)
    requires MinZoom <= z <= MaxZoom
    ensures MinZoom <= ZoomIn(z) <= MaxZoom && MinZoom <= ZoomOut(z) <= MaxZoom
    ensures ZoomIn(MaxZoom) == MaxZoom && ZoomOut(MinZoom) == MinZoom
  {
  }

  /** Away from the upper bound, zooming out undoes zooming in. */
  lemma ZoomInThenOut(z: real)
    requires MinZoom <= z <= MaxZoom - ZoomStep
    ensures ZoomOut(ZoomIn(z)) == z
  {
  }

  function ZoomInTimes(z: real, n: nat): real
  {
    if n == 0 then z else ZoomIn(ZoomInTimes(z, n - 1))
  }

  /** `n` zoom-in steps from a zoom within bounds land at `min(3, z + n/4)`. */
  lemma {:induction false} ZoomInTimesClamps(z: real, n: nat)
    requires MinZoom <= z <= MaxZoom
    ensures ZoomInTimes(z, n) == Min(MaxZoom, z + n as real * ZoomStep)
  {
    if n > 0 {
      ZoomInTimesClamps(z, n - 1);
    }
  }

  /** `(r + 90) % 360`. */
  function Rotate(rotation: nat): (r: nat)
    ensures 0 <= r < 360 && (r - rotation - 90) % 360 == 0
  {
    (rotation + 90) % 360
  }

  /** A quarter turn keeps the rotation a quarter-turn multiple, and four of them are the identity. */
  lemma RotateCycle(rotation: nat)
    requires rotation in {0, 90, 180, 270}
    ensures Rotate(rotation) in {0, 90, 180, 270}
    ensures Rotate(Rotate(Rotate(Rotate(rotation)))) == rotation
  {
    assert Rotate(0) == 90 && Rotate(90) == 180 && Rotate(180) == 270 && Rotate(270) == 0;
  }

  /** `resetTransformations`. */
  function ResetTransform(s: ViewerState): (r: ViewerState)
    ensures r.zoom == 1.0 && r.rotation == 0
    ensures r.index == s.index && r.open == s.open && r.fullscreen == s.fullscreen
  {
    s.(zoom := 1.0, rotation := 0)
  }

  /** `toggleFullscreen`, with the browser's promise taken to succeed. */
  function ToggleFullscreen(s: ViewerState): (r: ViewerState)
    ensures r.fullscreen != s.fullscreen && r == s.(fullscreen := r.fullscreen)
  {
    s.(fullscreen := !s.fullscreen)
  }

  /** `exitFullscreen`: leaves fullscreen if in it, otherwise nothing. */
  function ExitFullscreen(s: ViewerState): (r: ViewerState)
    ensures !r.fullscreen && r == s.(fullscreen := false)
  {
    s.(fullscreen := false)
  }

  // ---------------------------------------------------------------------------
  // Keyboard table

  /** The keys `handleKeyDown` acts on. */
  const KeyNames: set<string> := {"Escape", "ArrowLeft", "ArrowRight", "f", "F", "r", "R", "+", "=", "-", "0"}

  /** `handleKeyDown`, given `e.key` and the number of photos in the filtered list. */
  function KeyDown(s: ViewerState, key: string, count: nat): (r: ViewerState)
    ensures !Visible(s, count) ==> r == s
  {
    if !Visible(s, count) then s
    else if key == "Escape" then (if s.fullscreen then ExitFullscreen(s) else Close(s))
    else if key == "ArrowLeft" then (if HasPrev(s) then Prev(s) else s)
    else if key == "ArrowRight" then (if HasNext(s, count) then Next(s, count) else s)
    else if key == "f" || key == "F" then ToggleFullscreen(s)
    else if key == "r" || key == "R" then s.(rotation := Rotate(s.rotation))
    else if key == "+" || key == "=" then s.(zoom := ZoomIn(s.zoom))
    else if key == "-" then s.(zoom := ZoomOut(s.zoom))
    else if key == "0" then s.(zoom := 1.0)
    else s
  }

  /**
   * The key table of an open viewer: `+`/`=` zoom in, `-` zooms out, `r`/`R`
   * rotate a quarter turn, `f`/`F` toggle fullscreen, and a key the table
   * does not list changes nothing.
   */
  lemma KeyTable(s: ViewerState, count: nat)
    requires Visible(s, count)
    ensures KeyDown(s, "+", count) == s.(zoom := ZoomIn(s.zoom))
    ensures KeyDown(s, "=", count) == s.(zoom := ZoomIn(s.zoom))
    ensures KeyDown(s, "-", count) == s.(zoom := ZoomOut(s.zoom))
    ensures KeyDown(s, "r", count) == s.(rotation := Rotate(s.rotation))
    ensures KeyDown(s, "R", count) == s.(rotation := Rotate(s.rotation))
    ensures KeyDown(s, "f", count) == ToggleFullscreen(s)
    ensures KeyDown(s, "F", count) == ToggleFullscreen(s)
    ensures forall key | key !in KeyNames :: KeyDown(s, key, count) == s
  {
  }

  /** Every key keeps the transform valid. */
  lemma KeyDownKeepsTransformValid(s: ViewerState, key: string, count: nat)
    requires ValidTransform(s)
    ensures ValidTransform(KeyDown(s, key, count))
  {
    ZoomBounded(s.zoom);
    RotateCycle(s.rotation);
  }

  /** Escape leaves fullscreen first; only outside fullscreen does it close the viewer. */
  lemma EscapeRule(s: ViewerState, count: nat)
    requires Visible(s, count)
    ensures s.fullscreen ==> KeyDown(s, "Escape", count) == s.(fullscreen := false)
    ensures !s.fullscreen ==> KeyDown(s, "Escape", count) == Close(s)
  {
  }

  /** Letter keys ignore case, `+` and `=` are the same key, and `0` resets only the zoom. */
  lemma KeyAliases(s: ViewerState, count: nat)
    ensures KeyDown(s, "f", count) == KeyDown(s, "F", count)
    ensures KeyDown(s, "r", count) == KeyDown(s, "R", count)
    ensures KeyDown(s, "+", count) == KeyDown(s, "=", count)
    ensures Visible(s, count) ==> KeyDown(s, "0", count) == s.(zoom := 1.0)
  {
  }

  /** The arrow keys move only when the corresponding button is shown, and keep zoom and rotation. */
  lemma ArrowKeys(s: ViewerState, count: nat)
    requires Visible(s, count)
    ensures KeyDown(s, "ArrowRight", count) == Next(s, count)
    ensures KeyDown(s, "ArrowLeft", count) == Prev(s)
    ensures !HasNext(s, count) ==> KeyDown(s, "ArrowRight", count) == s
    ensures !HasPrev(s) ==> KeyDown(s, "ArrowLeft", count) == s
  {
  }

  /** Every transition of the viewer keeps the transform valid. */
  lemma TransitionsKeepTransformValid(s: ViewerState, i: nat, count: nat)
    requires ValidTransform(s)
    ensures ValidTransform(Open(s, i)) && ValidTransform(Close(s))
    ensures ValidTransform(Next(s, count)) && ValidTransform(Prev(s))
    ensures ValidTransform(ResetTransform(s)) && ValidTransform(ToggleFullscreen(s))
  {
  }

  /**
   * Open the first of three photos, zoom in four times, press the right
   * arrow: the second photo is shown still at twice the size, since
   * navigation does not reset the zoom.
   */
  lemma ZoomSurvivesNavigation()
    ensures var s0 := Open(Initial(), 0);
      var s4 := KeyDown(KeyDown(KeyDown(KeyDown(s0, "+", 3), "+", 3), "+", 3), "+", 3);
      var s5 := KeyDown(s4, "ArrowRight", 3);
      s5.index == Some(1) && s5.zoom == 2.0 && s5.open
  {
  }

  // ---------------------------------------------------------------------------
  // Fit to window

  datatype Size = Size(width: real, height: real)
  datatype Window = Window(innerWidth: real, innerHeight: real)

  const DefaultSize: Size := Size(1200.0, 800.0)

  /**
   * The largest box with aspect ratio `ar` inside `maxWidth` x `maxHeight`,
   * before flooring: full width unless that is too tall.
   */
  function FitToBox(ar: real, maxWidth: real, maxHeight: real): (r: Size)
    requires ar != 0.0
    ensures ar > 0.0 && maxWidth > 0.0 && maxHeight > 0.0 ==>
      && r.width == r.height * ar
      && r.width <= maxWidth && r.height <= maxHeight
      && (r.width == maxWidth || r.height == maxHeight)
  {
    var h := maxWidth / ar;
    if h > maxHeight then Size(maxHeight * ar, maxHeight) else Size(maxWidth, h)
  }

  function Floor(x: real): real
  {
    x.Floor as real
  }

  /**
   * `calculateOptimalDimensions`: the default size without a photo or a
   * window, the floored fit when the photo's size is known, and the window
   * box capped at the default otherwise.
   */
  function OptimalDimensions(photo: Option<Photo>, window: Option<Window>): (r: Size)
    ensures photo.None? || window.None? ==> r == DefaultSize
    ensures photo.Some? && window.Some? && !(Truthy(photo.value.width) && Truthy(photo.value.height)) ==>
      r == Size(Min(window.value.innerWidth - 80.0, 1200.0), Min(window.value.innerHeight - 200.0, 800.0))
  {
    if photo.None? || window.None? then DefaultSize
    else
      var w := window.value.innerWidth - 80.0;
      var h := window.value.innerHeight - 200.0;
      var p := photo.value;
      if Truthy(p.width) && Truthy(p.height) then
        var fit := FitToBox(p.width.value / p.height.value, w, h);
        Size(Floor(fit.width), Floor(fit.height))
      else
        Size(Min(w, 1200.0), Min(h, 800.0))
  }

  /**
   * With positive photo dimensions and room in the window, the computed size
   * fits the window box and is the floor of a box with the photo's aspect
   * ratio that touches the box on one side.
   */
  lemma OptimalDimensionsFit(p: Photo, win: Window)
    requires p.width.Some? && p.height.Some? && p.width.value > 0.0 && p.height.value > 0.0
    requires win.innerWidth > 80.0 && win.innerHeight > 200.0
    ensures var r := OptimalDimensions(Some(p), Some(win));
      var fit := FitToBox(AspectRatio(p), win.innerWidth - 80.0, win.innerHeight - 200.0);
      && r.width <= win.innerWidth - 80.0 && r.height <= win.innerHeight - 200.0
      && fit.width * p.height.value == fit.height * p.width.value
      && r.width <= fit.width < r.width + 1.0 && r.height <= fit.height < r.height + 1.0
  {
    var ar := AspectRatio(p);
    assert ar * p.height.value == p.width.value;
    var fit := FitToBox(ar, win.innerWidth - 80.0, win.innerHeight - 200.0);
    assert fit.width * p.height.value == fit.height * ar * p.height.value;
  }
}

=== FILE: wrappers.dfy ===
/** Failure-aware wrappers shared by every module of the model. */
module Wrappers {

  /** A value that may be absent: a missing JSON field, `null`, `undefined`. */
  datatype Option<+T> = None | Some(value: T) {

    /** The wrapped value, or `default` when absent (JavaScript's `x || d` on a present-or-missing field). */
    function GetOr(default: T): T {
      match this
      case Some(v) => v
      case None => default
    }
  }

  /** Either a computed value or the error the source would raise or report. */
  datatype Result<+T, +E> = Success(value: T) | Failure(error: E)
}
